=== FILE: README.md ===
# fb: a Dafny model of a Linux framebuffer drawing library

`fb` is a small C library for drawing on the Linux framebuffer device. An
`FBDev` surface opens `/dev/fb0` and fixes up its pixel format: grayscale is
turned off, and spare depth becomes an alpha channel. It then maps the
device memory in one of three buffering modes:

- **unbuffered**: draw straight into the mapping;
- **shadow copy**: draw into a heap back buffer and copy it over the
  mapping on present;
- **pan**: map two screens and pan between them.

The surface packs colours into 32-bit pixel words, stores pixels with a
guarded 4-byte write, clears the back buffer with a byte fill, presents,
and closes. On top of the single pixel store `fb_draw` sit the
rasterizers: spans, an integer line stepper, the midpoint circle, a
filled circle, rectangles, triangles and polygons.

The model has one module per concern:

- `Bits` (`bits.dfy`): 32-bit words and bytes as bit sequences (least
  significant bit first), with the C bit operators. Dafny's `bv32` would
  be the obvious type, but the solver was slow and unstable on the
  shift-and-mask proofs over it. Over sequences of bits every channel
  proof becomes reasoning about single bit positions, which is cheap and
  stable;
- `PixelFormat` (`pixel_format.dfy`): screen-info records, the format
  fix-up, channel masks, `fb_rgb` and `fb_rgba`;
- `Surface` (`surface.dfy`): the `FBDev` class, its buffering modes, the
  pixel store and its guard, clear, present, close, and the console mode
  switch;
- `Canvas` (`canvas.dfy`): traces of `fb_draw` calls, and the picture they
  leave when each point keeps its last write;
- `Spans`, `Lines`, `Circles`, `Rects`, `Polygons`: the rasterizers.

**How the rasterizers are modelled.** Each rasterizer is a method that
runs the C loop and returns its trace: the `fb_draw(x, y, colour)` calls
it makes, in order. Its `ensures` equates that trace with a loop-free
reference function, and lemmas about that function state what the
drawing does. `Canvas.Paint` folds a trace into a picture, last write
wins, to state which colour a point ends with (outline over fill). A
picture is what the buffer shows only at 32 bits per pixel, for calls
that are stored at locations that do not overlap (see "## Left out").
`Surface.FBDev.Draw` says what each call does to the buffer's bytes.

**Surface facts shown by the model.**

- **Overrun.** The pixel-store guard in `fb_draw` is `location > ssize`.
  It lets through locations whose 4-byte store ends past the buffer.
- **Wrap-around.** The location is computed in unsigned 32-bit
  arithmetic, so a negative coordinate is not rejected as such: it wraps.
  Most wrapped locations lie far above `ssize` and the guard drops them
  (`x = 0, y = -1` gives `2^32 - line_length`). Some land inside the
  buffer: column -1 of a row `y >= 1` is the last pixel slot of line
  `y - 1`.
- **Pan mode.** A present sets `yoffset` to `ssize`, which is a byte count.
  `fb_draw` then adds `yoffset * line_length` to the location of an
  already-swapped buffer pointer. So once a present leaves
  `yoffset == ssize` (the first one does when the device starts at 0),
  every non-wrapping draw at a non-negative position is dropped.
- **Close after pan.** `fb_close` unmaps from `fbuf`. After an odd number
  of pan presents, `fbuf` is the second half of the mapping.

The three bugs with a clear fix are listed under Findings.

## Model

| member | source | states |
|---|---|---|
| `Bits.BytesRoundTrip` | fbdev.c:180 | the four little-endian bytes of a 32-bit word reassemble to that word |
| `PixelFormat.FixupFormat` | fbdev.c:65-72 | the fixed-up format has grayscale 0. When red+green+blue (u32 sum) is below the depth, the alpha channel starts right after them and ends at the depth; otherwise alpha is kept. No other field changes |
| `PixelFormat.FixupFillsDepth` | fbdev.c:68-71 | after the fix-up the four channel lengths add up to `bits_per_pixel` |
| `PixelFormat.FixupIdempotent` | fbdev.c:65-72 | fixing up a fixed-up format changes nothing |
| `PixelFormat.Mask` | fbdev.c:137-140 | bit `i` of a channel mask is set exactly when `offset <= i < offset + length` |
| `PixelFormat.MaskBits` | fbdev.c:137-140 | `((1 << length) - 1) << offset` has exactly bits `offset … offset + length - 1` set |
| `PixelFormat.Extract` | fbdev.c:167-170 | bit `k` of the channel value is bit `offset + k` of the pixel when `k` is below the channel length and that bit lies in the word, and 0 otherwise |
| `PixelFormat.ExtractPlaced` | fbdev.c:167-170 | the channel accessor `(uint8_t)((v & mask) >> offset)` returns `x` from any pixel that agrees with `x << offset` on the channel's bits |
| `PixelFormat.Rgb` | fbdev.c:154-156 | bit `i` of the word is set exactly when red, green or blue has bit `i - offset` set for its channel's offset: all eight bits of each value are shifted in, not cut to the channel length |
| `PixelFormat.Rgba` | fbdev.c:158-160 | the same, with alpha at the transparency offset as a fourth source of bits |
| `PixelFormat.RgbRoundTrip` | fbdev.c:154-156 | for byte-wide, pairwise disjoint channels and values that fit them, extracting red, green and blue from `fb_rgb` returns the packed values |
| `PixelFormat.RgbaRoundTrip` | fbdev.c:158-160 | the same for `fb_rgba` with the alpha channel as fourth |
| `PixelFormat.BlackIsZero` | fbdev.c:143 | `fb_rgb(0, 0, 0)` is the word 0 in every format |
| `PixelFormat.WhiteIsFull` | fbdev.c:144 | `fb_rgb(0xFF, 0xFF, 0xFF)` sets every bit of every byte-wide colour channel |
| `Surface.ModeOf` | fbdev.c:88-123 | no mode is selected exactly when none of the three mode bits is set; shadow copy needs the MEM bit and pan the PAN bit |
| `Surface.ModePrecedence` | fbdev.c:88-123 | the mode bits are tested NONE, then MEM, then PAN; each mode holds exactly when its bit is the first one set, and none holds when no bit is set |
| `Surface.NoneWins` | fbdev.c:88 | setting the NONE bit selects unbuffered drawing whatever else is set |
| `Surface.MapLength` | fbdev.c:90-114 | pan mode maps `2 * ssize` bytes, the other two modes `ssize`, and no mode bit maps nothing |
| `Surface.SurfaceSize` | fbdev.c:86 | `ssize` is `yres_virtual * line_length` when the product fits in 32 bits |
| `Surface.SurfaceSizeWraps` | fbdev.c:86 | in every case `ssize` is that product modulo `2^32` |
| `Surface.Outcome` | fbdev.c:174-188 | a location is stored exactly when it passes the guard and its 4 bytes fit the buffer; it is dropped exactly when it exceeds `ssize`; otherwise it overruns |
| `Surface.GuardAdmitsOverrun` | fbdev.c:172-176 | on a 640x480, 32-bit screen, `fb_draw(dev, 0, 480, c)` computes location `ssize`, passes the guard and does not fit |
| `Surface.LastPixelOverrunsAt16Bits` | fbdev.c:172-186 | at 16 bits per pixel with tight lines, the store of the last visible pixel ends past the buffer |
| `Surface.Location` | fbdev.c:172-173 | a row-major sum in `[0, 2^32)` is the location itself; a negative sum `n` gives a location of at least `n + 2^32` |
| `Surface.LocationWraps` | fbdev.c:172-173 | in every case the location is the row-major sum modulo `2^32` |
| `Surface.LocationRowMajor` | fbdev.c:172-173 | a location that does not wrap is `(x + xoffset) * (bpp / 8) + (y + yoffset) * line_length` |
| `Surface.NegativeColumnWraps` | fbdev.c:172-173 | column -1 of row y is not rejected: it lands on the last pixel slot of line y - 1 |
| `Surface.NegativeRowWraps` | fbdev.c:172-173 | without offsets, `x = 0, y = -1` gives location `2^32 - line_length` |
| `Surface.VisiblePixelsStored` | fbdev.c:172-180 | on a 32-bit screen without panning whose lines hold the visible width, every visible pixel is stored |
| `Surface.PanDrawsDroppedAfterSwap` | fbdev.c:172-176 | with `yoffset == ssize`, as the first pan present leaves it, every non-wrapping draw at a non-negative position is dropped |
| `Surface.PutWord` | fbdev.c:180 | the 4-byte store leaves the word at the location in little-endian order and every other byte unchanged |
| `Surface.Fill` | fbdev.c:199 | `memset` sets the `n` bytes from `from` to the byte and leaves the rest unchanged |
| `Surface.Splice` | fbdev.c:209 | `memcpy` puts the source bytes at the offset and leaves the rest unchanged |
| `Surface.SetKdMode` | fbdev.c:17-47 | the result is -1 when standard input is not a tty, has no name, is not a virtual console, cannot be opened, or the mode query fails; any other result is the mode the query reported |
| `Surface.SetKdModeSaves` | fbdev.c:17-46 | when standard input is a virtual console that opens and the mode query succeeds, the result is the mode the query reported |
| `Surface.ConsoleModeSaved` | fbdev.c:25-46 | a `/dev/tty…` console reporting text mode yields text mode, to be restored on close |
| `Surface.ClosePlan` | fbdev.c:231-259 | close ends by closing the device. It restores the console mode exactly when `kdsave >= 0`, just before the close. It frees the back buffer exactly in shadow-copy mode, second. It first unmaps `MapLength` bytes from `fbuf` in every buffered mode, and unmaps nothing otherwise. There is no other release: the plan's length is the number of these |
| `Surface.PanCloseAfterSwapMissesMapping` | fbdev.c:246 | with `fbuf` at `ssize`, where one pan present moves it from the layout `fb_init` sets up, the unmap starts `ssize` bytes into the mapping instead of at its start |
| `Surface.MappedClosePlan` | fbdev.c:244-249 | the intended close unmaps the mapping from its start, with the same other releases |
| `Surface.ClosePlanAgrees` | fbdev.c:231-249 | the close as written equals the intended one exactly when `fbuf` is the start of the mapping |
| `Surface.PanToggle` | fbdev.c:212-216 | the new `yoffset` is `ssize` when it was 0, and 0 otherwise |
| `Surface.PanSwap` | fbdev.c:212-227 | a pan present toggles the offset and exchanges the front and back buffers |
| `Surface.PanToggleTwice` | fbdev.c:212-216 | two toggles restore `yoffset` exactly when it started at 0 or `ssize` |
| `Surface.PanSwapTwice` | fbdev.c:212-227 | two pan presents restore the offset and both buffers exactly when the offset started at 0 or `ssize` |
| `Surface.Negotiated` | fbdev.c:65-81 | the format is the one the device reports when it is queried again after the fixed-up format is sent, whatever the driver made of the request; when that query fails, the fixed-up request stays in place (grayscale 0, unchanged by another fix-up) |
| `Surface.FBDev.Black` | fbdev.c:143 | the cached black is the word 0 |
| `Surface.FBDev.White` | fbdev.c:144 | the cached white has exactly the eight bits from each colour channel's offset set |
| `Surface.FBDev.BuffersInside` | fbdev.c:88-123 | in a valid surface both buffers' `ssize` bytes lie inside their memory |
| `Surface.FBDev.Init` | fbdev.c:49-147 | returns 0 or -1. It fails exactly when the device does not open, or a buffered mode's mapping is refused, empty or too large, or the shadow buffer's allocation fails. Once the device opens, the format is `Negotiated` from the two reports and `ssize` follows from it. On success the flags, `BLEND_NONE` and the console mode to restore are recorded, and a buffered mode leaves a valid buffer layout over the device memory: `fbuf` at the mapping's start, and in pan mode `bbuf` exactly `ssize` bytes after it |
| `Surface.FBDev.Record` | fbdev.c:124-133 | `kdsave` is the console mode `set_kd_mode` returns when the flag asks for it and -1 otherwise; the flags and `BLEND_NONE` are recorded |
| `Surface.FBDev.Negotiate` | fbdev.c:60-86 | the format is `Negotiated` from the first report and the re-query, the fixed info is the device's, and `ssize` follows from them |
| `Surface.FBDev.MapBuffers` | fbdev.c:88-123 | succeeds exactly when the mapping is granted, non-empty and fits (and the heap buffer is allocated in shadow-copy mode). It then lays out front, back and drawing buffers for the mode: `fbuf` at the mapping's start, `bbuf` equal to it, on the heap, or (pan) `ssize` bytes after it, and drawing into `bbuf`. A failed allocation leaves the mapping in place |
| `Surface.FBDev.Size` | fbdev.c:149-152 | returns the visible resolution |
| `Surface.FBDev.SetBlend` | fbdev.c:162-164 | stores the blend selector and changes nothing else |
| `Surface.FBDev.Store` | fbdev.c:180 | the active buffer becomes `PutWord` of its old bytes |
| `Surface.FBDev.Draw` | fbdev.c:166-189 | the outcome is `Outcome(location, ssize)`. A stored pixel is `PutWord` into the drawing buffer at the location; otherwise the buffer is unchanged. Nothing here depends on the blend selector |
| `Surface.FBDev.Clear` | fbdev.c:191-200 | every byte of the back buffer becomes the low byte of the pixel; nothing else changes |
| `Surface.FBDev.Swap` | fbdev.c:202-229 | the surface stays valid. Unbuffered: nothing changes. Shadow copy: the back buffer is copied over the front. Pan: the offset toggles and the buffers exchange |
| `Surface.FBDev.CopyBackToFront` | fbdev.c:209 | the mapping's first `ssize` bytes become the back buffer |
| `Surface.FBDev.PanFlip` | fbdev.c:210-228 | toggles `yoffset`, exchanges front and back, keeps drawing into the back buffer |
| `Surface.FBDev.Close` | fbdev.c:231-259 | the releases are `ClosePlan` of the state before the call, and the device is closed |
| `Surface.FBDev.CloseAfterPanPresent` | fbdev.c:202-259 | on a pan surface laid out as `fb_init` leaves it, `fb_swap` then `fb_close` unmaps `2 * ssize` bytes from `ssize` bytes into the mapping, not from its start |
| `Canvas.PaintMissed` | fbdev.c:180 | a point no `fb_draw` call of a trace touches keeps its colour |
| `Canvas.PaintLastWins` | fbdev.c:180 | when the later part of a trace writes a point only in one colour, the point ends with that colour, whatever came before |
| `Spans.HLine` | primitives.c:5-16 | the writes are `HSpan`: row `y` from `min(x1, x2)` to `max(x1, x2)` |
| `Spans.VLine` | primitives.c:18-29 | the writes are `VSpan`: column `x` from `min(y1, y2)` to `max(y1, y2)` |
| `Spans.HSpanSymmetric` | primitives.c:5-16 | swapping `x1` and `x2` gives the same write sequence |
| `Spans.VSpanSymmetric` | primitives.c:18-29 | swapping `y1` and `y2` gives the same write sequence |
| `Spans.HSpanExactly` | primitives.c:5-16 | a horizontal span writes exactly row `y` between its ends, in strictly ascending x, all in its colour |
| `Spans.VSpanExactly` | primitives.c:18-29 | a vertical span writes exactly column `x` between its ends, in strictly ascending y, all in its colour |
| `Lines.MinorAccounts` | primitives.c:46-63 | the accumulator stays in `[0, major)`, and `major/2 + k*minor == minor_steps * major + accumulator` after `k` steps |
| `Lines.MinorRounded` | primitives.c:46-63 | after `k` steps the minor axis has advanced `(major/2 + k*minor) / major` |
| `Lines.MinorEnd` | primitives.c:52-76 | after `major` steps the minor axis has advanced its whole delta |
| `Lines.MinorFlat` | primitives.c:52-63 | with a minor delta of 0 the minor axis never moves and the accumulator stays at `major/2` |
| `Lines.StepsAt` | primitives.c:52-76 | the first `k` stepper writes are steps `0 … k - 1` in closed form: step `i` is `i + 1` along the major axis and `Minor(…, i + 1)` along the minor axis |
| `Lines.Line` | primitives.c:31-77 | the writes are `Segment`: the straight span for a vertical or horizontal line, then the stepper |
| `Lines.AlongX` | primitives.c:52-63 | the x-major loop writes the stepper's sequence |
| `Lines.AlongY` | primitives.c:64-76 | the y-major loop writes the stepper's sequence |
| `Lines.SteppingStep` | primitives.c:52-76 | each step moves one unit along the major axis, and zero or one unit towards the end along the minor axis, from the previous point |
| `Lines.SteppingSteps` | primitives.c:52-76 | the same for every step of the stepper |
| `Lines.SteppingEnds` | primitives.c:52-76 | the stepper makes exactly `max(abs(dx), abs(dy))` writes, never writes the start point, and ends on `(x2, y2)` |
| `Lines.SegmentPoint` | primitives.c:35-39 | coincident end points make exactly one write, of that point |
| `Lines.SegmentStraightRepeats` | primitives.c:35-39 | for a vertical or horizontal line every stepper write lies on the span already drawn |
| `Lines.SegmentEnds` | primitives.c:31-77 | every line's last write is its end point |
| `Circles.ArcX` | primitives.c:79-104 | the column the loop reaches on a row never exceeds the radius |
| `Circles.DescendFinds` | primitives.c:94-102 | the inward search stops at the first column inside `x*x + y*y < r*r + r` |
| `Circles.DescendBand` | primitives.c:94-102 | the column found is inside, and the column beyond it is not (unless it is the start) |
| `Circles.DescendMonotone` | primitives.c:94-102 | a later row never has a column further out |
| `Circles.MidpointStart` | primitives.c:80-83 | the initial state `error = -r, x = r, y = 0` satisfies the loop invariant |
| `Circles.MidpointNotOutside` | primitives.c:84-104 | while the loop runs the error is not positive |
| `Circles.MidpointKeep` | primitives.c:94-97 | an iteration whose error stays negative keeps `error == x*x + y*y - r*r - r` and the column of the new row |
| `Circles.MidpointMove` | primitives.c:94-102 | an iteration whose error reaches 0 moves `x` in by one and keeps the same invariant |
| `Circles.MidpointStep` | primitives.c:94-102 | one iteration of the error update keeps the invariant, whichever branch it takes |
| `Circles.OutlineStep` | primitives.c:84-104 | a visited row contributes its eight writes, then the later rows follow |
| `Circles.DiscsStep` | primitives.c:113-136 | a visited row contributes its four spans and eight points, then the later rows follow |
| `Circles.Circle` | primitives.c:79-105 | the writes are `CircleTrace`; the loop keeps the error identity and terminates since `x - y` decreases |
| `Circles.DiscRow` | primitives.c:114-127 | one iteration writes its four fill spans before its eight outline points |
| `Circles.FilledCircle` | primitives.c:107-137 | the writes are `FilledTrace`, with the same invariant as the outline |
| `Circles.OctantsExactly` | primitives.c:86-93 | the eight writes of an iteration go exactly to `(cx±x, cy±y)` and `(cx±y, cy±x)`, all in the colour |
| `Circles.ArcShape` | primitives.c:84-104 | row `k` of the visited rows has the column `ArcX(r, k)`, with `k <= x <= r`; the row after the last is past the diagonal |
| `Circles.ArcRows` | primitives.c:84 | the loop visits row `y` exactly when that row's column is not left of the diagonal |
| `Circles.OutlineExactly` | primitives.c:84-104 | the outline writes go exactly to the eight mirror images of the visited points |
| `Circles.OutlineExactlyStep` | primitives.c:84-104 | the same, one row at a time |
| `Circles.CircleExactly` | primitives.c:79-105 | the circle writes exactly the mirror images of the points `(ArcX(r, y), y)` with `0 <= y <= ArcX(r, y) <= r`, all in the colour |
| `Circles.CircleSymmetric` | primitives.c:86-93 | whatever the circle writes, it also writes its mirror images in both axes and in the diagonal |
| `Circles.ArcOnRing` | primitives.c:84-104 | for `r >= 1` each visited point is inside `x*x + y*y < r*r + r`, and the next column out is not |
| `Circles.CircleOnRing` | primitives.c:79-105 | for `r >= 1` each written point, at offsets `u, v` from the centre, is inside that ring, and the next point outwards along the larger offset is not |
| `Circles.CircleDegenerate` | primitives.c:79-105 | a negative radius writes nothing (outline or filled); radius 0 writes the centre eight times and nothing else |
| `Circles.ArcStep` | primitives.c:94-102 | between consecutive visited rows the column stays or moves in by one |
| `Circles.ArcConnected` | primitives.c:84-104 | for `r >= 0` the first row is `(r, 0)`, consecutive rows move in by at most one column, and the last row ends on or next to the diagonal |
| `Circles.DiscMissesRow` | primitives.c:114-127 | an iteration for a row `k >= 1` never touches the centre row |
| `Circles.DiscsMissRow` | primitives.c:113-136 | no iteration after the first touches the centre row |
| `Circles.DiscsMissRowStep` | primitives.c:113-136 | the inductive step of the previous row |
| `Circles.FirstDiscInside` | primitives.c:114-127 | the first iteration leaves the inside of the centre row with the fill colour |
| `Circles.FirstDiscEnds` | primitives.c:114-127 | the first iteration leaves `(cx ± r, cy)` with the outline colour |
| `Circles.FilledCentrePoint` | primitives.c:107-137 | one point of the centre row after the filled circle: outline colour at `cx ± r`, fill colour between |
| `Circles.FilledCentreRow` | primitives.c:107-137 | for `r >= 0` the centre row ends with the fill colour strictly between `cx - r` and `cx + r` and the outline colour at both ends |
| `Rects.Rect` | primitives.c:139-144 | the writes are `Border`: the top row, the bottom row, the left column, the right column |
| `Rects.FillRect` | primitives.c:146-152 | the writes are one fill span per row `y … y + h - 1`, then the outline |
| `Rects.BorderExactly` | primitives.c:139-144 | the outline writes exactly rows `y` and `y + h` across the width and columns `x` and `x + w` across the height, all in its colour; for `w, h >= 0` no strictly interior point |
| `Rects.RowsExactly` | primitives.c:148-150 | the fill loop writes exactly the rows `y … y + h - 1` across the width, all in the fill colour |
| `Rects.FilledBoxPaint` | primitives.c:146-152 | for `h >= 0` outline points end with the outline colour, interior points with the fill colour, and every other point is unchanged |
| `Polygons.Tri` | primitives.c:154-158 | the writes are the lines 1→2, 2→3, 3→1 |
| `Polygons.TriangleVertices` | primitives.c:154-158 | all three vertices are written, and the last write is vertex 1 |
| `Polygons.Next` | primitives.c:163 | `(i + 1) % n` stays in `[0, n)` and wraps to 0 only after `n - 1` |
| `Polygons.AsWrittenStep` | primitives.c:162-164 | one more call as written appends the line from `(vx[i], vx[i+1])` to `(vy[i], vy[i+1])` (wrapping) |
| `Polygons.EdgesStep` | primitives.c:162-164 | one more call in the intended order appends the edge from vertex `i` to vertex `i + 1` (wrapping) |
| `Polygons.AsWrittenEdge` | primitives.c:162-164 | call `i` as written, appended to the writes of calls `0 … i - 1`, gives the writes of calls `0 … i` |
| `Polygons.FixedEdge` | primitives.c:162-164 | the same for the intended order |
| `Polygons.Polygon` | primitives.c:160-165 | no call when `n <= 0`; otherwise the writes of the `n` line calls as written, `(vx[i], vx[i+1], vy[i], vy[i+1])` |
| `Polygons.PolygonFixed` | primitives.c:160-165 | the same loop with each edge from `(vx[i], vy[i])` to `(vx[i+1], vy[i+1])` |
| `Polygons.EdgesReachVertex` | primitives.c:160-165 | once edge `j - 1` is drawn, vertex `j` (wrapping) is written and stays written |
| `Polygons.PolygonVertices` | primitives.c:160-165 | with the intended order every vertex is written and the last write is vertex 0 |
| `Polygons.DiagonalFromThreeThree` | primitives.c:52-63 | the line from `(3, 3)` to `(5, 5)` writes `(4, 4)` then `(5, 5)` |
| `Polygons.PolygonAsWrittenMissesVertex` | primitives.c:163 | for the single vertex `(3, 5)` the call as written never writes `(3, 5)`, while the intended call writes exactly `(3, 5)` |

## Left out

- Device and operating-system calls are parameters of `Surface.FBDev.Init`:
  opening the device node, the screen-info ioctls, `mmap`, `malloc`, and
  the tty calls of `set_kd_mode`. The release calls `munmap`, `free`,
  `close` and the restoring `set_kd_mode` are returned as a plan by
  `Surface.FBDev.Close`.
- Failed ioctls are only logged in `fb_init`. The formats the device
  reports, before and after the fixed-up one is sent, are parameters of
  `Surface.FBDev.Init`. A failed re-query is `None`, and the model then
  keeps the fixed-up request. The `FBIOPAN_DISPLAY` ioctl and all `warn`
  logging are not modelled.
- `Surface.Negotiated`: `FBIOPUT_VSCREENINFO` may copy a driver-adjusted
  format back into the request. A successful re-query replaces that copy
  and is modelled exactly. After a failed re-query the C surface keeps the
  adjusted copy, while the model keeps the unadjusted request: the
  copy-back is not a separate parameter.
- The console effect of `KDSETMODE` is not modelled. `Surface.SetKdMode`
  keeps only its result.
- The heap back buffer's initial contents are undefined in C. The model
  starts it at zero.
- `Surface.FBDev.Draw`: a store that passes the guard but whose 4 bytes
  end past the buffer is reported as `Overrun` and changes no byte, not
  even the bytes that lie inside the buffer. The C store does write them.
  At 16 bits per pixel the first two bytes of the last visible pixel are
  inside, so the model never draws that pixel
  (`Surface.LastPixelOverrunsAt16Bits`). In pan mode after an odd number
  of presents, `bufp` is the first half of the `2 * ssize` mapping, so an
  overrunning store lands in the front half, which is still mapped
  memory. Only a store past the whole mapping is undefined behaviour in C.
- `Surface.FBDev.Draw`: the `BLEND_ALPHA`/`BLEND_ADD` values (1 and 2) are
  not in the visible headers. They are chosen here, and do not matter,
  since every branch performs the same store.
- The `rmask` … `amask`, `black` and `white` fields are not stored. They
  are computed from the format by `Surface.FBDev.RedMask` …
  `Surface.FBDev.White`, which gives the same values because nothing
  changes the channel layout after `fb_init`.
- `Surface.FBDev.Size`: returns the `__u32` resolution. It does not model
  the conversion of values of 2^31 and above to a negative `int`.
- Shifts by 32 or more in the mask and colour expressions are undefined
  in C. The model drops bits shifted past bit 31, and a length of 32 or
  more gives all ones.
- `Surface.FBDev.Draw`, `Surface.FBDev.Clear` and `Surface.FBDev.Swap`
  require a valid surface, which has one of the three mode bits set. A
  surface opened with no mode bit, which `fb_init` accepts (fbdev.c:146)
  and on which `fb_swap` does nothing, is not covered. Every buffering
  mode needs one mode flag, and the demo opens its surface with the
  shadow-copy flag.
- The rasterizers use unbounded integers. C `int` overflow in coordinate
  sums such as `x + w` and `cx + x`, and `abs(INT_MIN)`, are not modelled.
- `Canvas.Paint`, `Canvas.PaintMissed`, `Canvas.PaintLastWins`: a picture
  keeps one colour per point, as if each `fb_draw` call wrote only its own
  pixel. That is what the buffer shows only at 32 bits per pixel, for calls
  that are stored at locations that do not overlap. The store at
  fbdev.c:180 always writes 4 bytes: at 16 bits per pixel a stored draw at
  `(x, y)` also overwrites the pixel at `(x + 1, y)`, and at 24 bits per
  pixel one byte of it. In `draw_filled_circle`, for example, the outline
  point `(cx - x, cy + y)` drawn after the fill spans (primitives.c:119)
  leaves the high half of its colour on the next pixel, which the picture
  shows as fill. Wrapped coordinates (`Surface.NegativeColumnWraps`) also
  land on other points' memory, which a picture keeps apart. The picture
  lemmas `Circles.FirstDiscInside`, `Circles.FirstDiscEnds`,
  `Circles.FilledCentrePoint`, `Circles.FilledCentreRow` and
  `Rects.FilledBoxPaint` describe the screen only in that scope.
- The rasterizers are modelled as traces of `fb_draw` calls. Running a
  whole trace through `Surface.FBDev.Draw` is not one member: each call's
  effect on the buffer, and its clipping, is `Surface.FBDev.Draw`'s
  contract.
- `time_utils.c` (frame pacing over the system clock) is not part of this
  model, and neither is the `main.c` demo, which uses floating-point
  trigonometry.

## Findings

| source | as written | input that shows it | evidently intended | confidence | as-written member | corrected member |
|---|---|---|---|---|---|---|
| fbdev.c:174 | the guard rejects only `location > ssize`, but the store writes 4 bytes | 640x480 at 32 bits per pixel, `fb_draw(dev, 0, 480, c)`: location 1228800 == `ssize` passes and writes 4 bytes past the buffer | store only when `location + 4 <= ssize` | high (not executed) | `Surface.GuardAdmitsOverrun` | `Surface.Outcome` |
| fbdev.c:246 | pan-mode close unmaps `2 * ssize` bytes from `fbuf`, which `fb_swap` exchanges with `bbuf` | pan mode, one `fb_swap`, then `fb_close`: the unmap starts at mapping + `ssize` | unmap the mapping from its start | high (not executed) | `Surface.FBDev.CloseAfterPanPresent` | `Surface.MappedClosePlan` |
| primitives.c:163 | `draw_line(dev, vx[i], vx[(i+1)%n], vy[i], vy[(i+1)%n], pixel)` passes x coordinates as the first end point | `n = 1`, vertex `(3, 5)`: the line from `(3, 3)` to `(5, 5)` is drawn and `(3, 5)` is never written | `draw_line(dev, vx[i], vy[i], vx[(i+1)%n], vy[(i+1)%n], pixel)` | high (not executed) | `Polygons.PolygonAsWrittenMissesVertex` | `Polygons.PolygonVertices` |

=== FILE: bits.dfy ===
/**
 * Unsigned 32-bit words and bytes as the C code sees them, modelled as their
 * bits, least significant first.  The C operators `|`, `&`, `<<` and `>>` on
 * `uint32_t`, the promotion of a `uint8_t` to a word and the conversion of a
 * word back to `uint8_t` are bitwise operations on these sequences.
 */
module Bits {

  /** `n` copies of the bit `b`. */
  function Repeat(b: bool, n: nat): (s: seq<bool>)
    ensures |s| == n
    ensures forall i :: 0 <= i < n ==> s[i] == b
  {
    if n == 0 then [] else Repeat(b, n - 1) + [b]
  }

  /** A `uint32_t`: bit `i` has weight `2^i`. */
  type Word = s: seq<bool> | |s| == 32 witness Repeat(false, 32)

  /** A `uint8_t`: bit `i` has weight `2^i`. */
  type Octet = s: seq<bool> | |s| == 8 witness Repeat(false, 8)

  /** The word 0. */
  const Zero: Word := Repeat(false, 32)

  /** The byte 0. */
  const ZeroOctet: Octet := Repeat(false, 8)

  /** The byte 0xFF. */
  const FullOctet: Octet := Repeat(true, 8)

  /** `a | b` */
  function Or(a: Word, b: Word): (r: Word)
    ensures forall i :: 0 <= i < 32 ==> r[i] == (a[i] || b[i])
  {
    seq(32, i requires 0 <= i < 32 => a[i] || b[i])
  }

  /** `a & b` */
  function And(a: Word, b: Word): (r: Word)
    ensures forall i :: 0 <= i < 32 ==> r[i] == (a[i] && b[i])
  {
    seq(32, i requires 0 <= i < 32 => a[i] && b[i])
  }

  /** `a << n`: bits move up by `n`; bits shifted past bit 31 are lost. */
  function Shl(a: Word, n: nat): (r: Word)
    ensures forall i :: 0 <= i < 32 ==> r[i] == (n <= i && a[i - n])
  {
    seq(32, i requires 0 <= i < 32 => n <= i && a[i - n])
  }

  /** `a >> n`, logical: bits move down by `n`; the top bits become clear. */
  function Shr(a: Word, n: nat): (r: Word)
    ensures forall i :: 0 <= i < 32 ==> r[i] == (i + n < 32 && a[i + n])
  {
    seq(32, i requires 0 <= i < 32 => i + n < 32 && a[i + n])
  }

  /** A `uint8_t` promoted to a word: the byte in the low eight bits. */
  function Widen(x: Octet): (r: Word)
    ensures forall i :: 0 <= i < 32 ==> r[i] == (i < 8 && x[i])
  {
    seq(32, i requires 0 <= i < 32 => i < 8 && x[i])
  }

  /** `(uint8_t) w`: the low eight bits. */
  function Low(w: Word): (r: Octet)
    ensures forall i :: 0 <= i < 8 ==> r[i] == w[i]
  {
    w[..8]
  }

  /** `(1 << l) - 1`: the low `l` bits set (all 32 when `l >= 32`, where the C shift is undefined). */
  function Ones(l: nat): (r: Word)
    ensures forall i :: 0 <= i < 32 ==> r[i] == (i < l)
  {
    seq(32, i => i < l)
  }

  /** Byte `k` (0 = least significant) of a word. */
  function ByteOf(w: Word, k: nat): (r: Octet)
    requires k < 4
    ensures forall i :: 0 <= i < 8 ==> r[i] == w[8 * k + i]
  {
    w[8 * k .. 8 * k + 8]
  }

  /** The word whose bytes, least significant first, are `b0` … `b3`. */
  function FromBytes(b0: Octet, b1: Octet, b2: Octet, b3: Octet): Word {
    b0 + b1 + b2 + b3
  }

  /** Splitting a word into its four bytes and joining them gives the word back. */
  lemma BytesRoundTrip(w: Word)
    ensures FromBytes(ByteOf(w, 0), ByteOf(w, 1), ByteOf(w, 2), ByteOf(w, 3)) == w
  {
    assert w == w[0..8] + w[8..16] + w[16..24] + w[24..32];
  }
}

=== FILE: canvas.dfy ===
/**
 * The drawing routines reach the framebuffer only through `fb_draw`.  A
 * routine is modelled by its trace: the `fb_draw` calls it makes, in order.
 * `Paint` is the net effect of a trace on a picture in which every
 * coordinate is visible: each point ends with the colour of the last write
 * to it.  This is the buffer's content at 32 bits per pixel when every write
 * is stored at its own location; at 16 or 24 bits per pixel the 4-byte store
 * of `fb_draw` also reaches the next pixel, which a picture does not show.
 */
module Canvas {
  import opened Bits

  /** One `fb_draw(dev, x, y, colour)` call. */
  datatype Plot = Plot(x: int, y: int, colour: Word)

  type Point = (int, int)

  function At(p: Plot): Point {
    (p.x, p.y)
  }

  /** A picture: the colour of every point written so far. */
  type Picture = map<Point, Word>

  /** The picture after the writes of `t`, in order, on top of `c`. */
  function Paint(c: Picture, t: seq<Plot>): Picture
  {
    if t == [] then c
    else Paint(c, t[..|t| - 1])[At(t[|t| - 1]) := t[|t| - 1].colour]
  }

  /** Does some write of `t` go to point `p`? */
  predicate Writes(t: seq<Plot>, p: Point) {
    exists i :: 0 <= i < |t| && At(t[i]) == p
  }

  /** Appending traces is associative. */
  lemma AppendAssoc(a: seq<Plot>, b: seq<Plot>, c: seq<Plot>)
    ensures a + b + c == a + (b + c)
  {
  }

  /** Painting two traces one after the other is painting their concatenation. */
  lemma {:induction false} PaintAppend(c: Picture, a: seq<Plot>, b: seq<Plot>)
    ensures Paint(c, a + b) == Paint(Paint(c, a), b)
    decreases |b|
  {
    if b == [] {
      assert a + b == a;
    } else {
      var b' := b[..|b| - 1];
      assert (a + b)[..|a + b| - 1] == a + b';
      PaintAppend(c, a, b');
    }
  }

  /** A point no write of `t` touches keeps its colour, or stays unpainted. */
  lemma {:induction false} PaintMissed(c: Picture, t: seq<Plot>, p: Point)
    requires !Writes(t, p)
    ensures (p in Paint(c, t)) == (p in c)
    ensures p in c ==> Paint(c, t)[p] == c[p]
    decreases |t|
  {
    if t != [] {
      var t' := t[..|t| - 1];
      PaintMissed(c, t', p);
    }
  }

  /** Every write of `t` to `p` has colour `v` (vacuous when `t` never writes `p`). */
  predicate OnlyColour(t: seq<Plot>, p: Point, v: Word) {
    forall i :: 0 <= i < |t| && At(t[i]) == p ==> t[i].colour == v
  }

  /** What a concatenation writes to `p` is what its two halves write there. */
  lemma WritesAppend(a: seq<Plot>, b: seq<Plot>, p: Point, v: Word)
    ensures Writes(a + b, p) <==> Writes(a, p) || Writes(b, p)
    ensures OnlyColour(a + b, p, v) <==> OnlyColour(a, p, v) && OnlyColour(b, p, v)
  {
    if Writes(a + b, p) {
      var i :| 0 <= i < |a + b| && At((a + b)[i]) == p;
      if i < |a| {
        assert At(a[i]) == p;
      } else {
        assert At(b[i - |a|]) == p;
      }
    }
    if Writes(a, p) {
      var i :| 0 <= i < |a| && At(a[i]) == p;
      assert (a + b)[i] == a[i];
    }
    if Writes(b, p) {
      var i :| 0 <= i < |b| && At(b[i]) == p;
      assert (a + b)[|a| + i] == b[i];
    }
    if OnlyColour(a, p, v) && OnlyColour(b, p, v) {
      forall i | 0 <= i < |a + b| && At((a + b)[i]) == p
        ensures (a + b)[i].colour == v
      {
        if i >= |a| {
          assert (a + b)[i] == b[i - |a|];
        }
      }
    }
    if OnlyColour(a + b, p, v) {
      forall i | 0 <= i < |a| && At(a[i]) == p
        ensures a[i].colour == v
      {
        assert (a + b)[i] == a[i];
      }
      forall i | 0 <= i < |b| && At(b[i]) == p
        ensures b[i].colour == v
      {
        assert (a + b)[|a| + i] == b[i];
      }
    }
  }

  /**
   * A point that `t` writes, every time with colour `v`, ends with colour `v`
   * whatever it held before.
   */
  lemma {:induction false} PaintUniform(c: Picture, t: seq<Plot>, p: Point, v: Word)
    requires Writes(t, p) && OnlyColour(t, p, v)
    ensures p in Paint(c, t) && Paint(c, t)[p] == v
    decreases |t|
  {
    var t' := t[..|t| - 1];
    if At(t[|t| - 1]) != p {
      assert Writes(t', p) by {
        var i :| 0 <= i < |t| && At(t[i]) == p;
        assert i < |t| - 1 && At(t'[i]) == p;
      }
      PaintUniform(c, t', p, v);
    }
  }

  /**
   * The last write of a trace to a point decides its colour: when `b` writes
   * `p` only with colour `v`, painting `a` then `b` leaves `v` there.
   */
  lemma PaintLastWins(c: Picture, a: seq<Plot>, b: seq<Plot>, p: Point, v: Word)
    requires Writes(b, p) && OnlyColour(b, p, v)
    ensures p in Paint(c, a + b) && Paint(c, a + b)[p] == v
  {
    PaintAppend(c, a, b);
    PaintUniform(Paint(c, a), b, p, v);
  }
}

=== FILE: circles.dfy ===
/**
 * `draw_circle` and `draw_filled_circle`: the midpoint circle algorithm.
 * Row `y` of the first octant (0 <= y <= x) is visited once per loop
 * iteration; the error term tracks `x*x + y*y - r*r - r`, and `x` moves one
 * column in whenever the error is no longer negative.  Each visited
 * `(x, y)` is written in all eight octants.
 */
module Circles {
  import opened Bits
  import opened Canvas
  import opened Spans

  /** `0 <= a <= b` implies `a * a <= b * b`. */
  lemma SquareMono(a: int, b: int)
    requires 0 <= a <= b
    ensures a * a <= b * b
  {
    assert a * a <= a * b <= b * b;
  }

  /**
   * The column the first octant has reached on row `k`, searching inwards
   * from `x`: the first column `d <= x` with `d * d + k * k < r * r + r`,
   * or 0 if there is none.
   */
  function Descend(r: int, k: int, x: int): (d: int)
    ensures d <= x
    decreases x
  {
    if x <= 0 || x * x + k * k < r * r + r then x else Descend(r, k, x - 1)
  }

  /** The column of row `k` of a circle of radius `r`: the outermost one inside `x*x + k*k < r*r + r`. */
  function ArcX(r: int, k: int): (x: int)
    ensures x <= r
  {
    Descend(r, k, r)
  }

  /**
   * The columns of rows `k`, `k + 1`, … of the first octant, while the
   * column is not left of the diagonal.
   */
  function Arc(r: int, k: nat): seq<int>
    decreases r + 1 - k
  {
    if ArcX(r, k) < k then [] else [ArcX(r, k)] + Arc(r, k + 1)
  }

  /** The eight `fb_draw` calls of one iteration, in the order the C code makes them. */
  function Octants(cx: int, cy: int, x: int, y: int, c: Word): seq<Plot> {
    [Plot(cx + x, cy + y, c), Plot(cx - x, cy + y, c), Plot(cx + x, cy - y, c), Plot(cx - x, cy - y, c),
     Plot(cx + y, cy + x, c), Plot(cx - y, cy + x, c), Plot(cx + y, cy - x, c), Plot(cx - y, cy - x, c)]
  }

  /** The outline writes for the rows `k`, `k + 1`, … whose columns are `arc`. */
  function Outline(cx: int, cy: int, arc: seq<int>, k: int, c: Word): seq<Plot>
    decreases |arc|
  {
    if arc == [] then [] else Octants(cx, cy, arc[0], k, c) + Outline(cx, cy, arc[1..], k + 1, c)
  }

  /** All the writes of `draw_circle(cx, cy, r)`. */
  function CircleTrace(cx: int, cy: int, r: int, c: Word): seq<Plot> {
    Outline(cx, cy, Arc(r, 0), 0, c)
  }

  /** The four fill spans and the eight outline points of one iteration of `draw_filled_circle`. */
  function Disc(cx: int, cy: int, x: int, y: int, fill: Word, pixel: Word): seq<Plot> {
    HSpan(cx + x, cx - x, cy + y, fill) + HSpan(cx + x, cx - x, cy - y, fill) +
    HSpan(cx + y, cx - y, cy + x, fill) + HSpan(cx + y, cx - y, cy - x, fill) +
    Octants(cx, cy, x, y, pixel)
  }

  /** The filled-circle writes for the rows `k`, `k + 1`, … whose columns are `arc`. */
  function Discs(cx: int, cy: int, arc: seq<int>, k: int, fill: Word, pixel: Word): seq<Plot>
    decreases |arc|
  {
    if arc == [] then [] else Disc(cx, cy, arc[0], k, fill, pixel) + Discs(cx, cy, arc[1..], k + 1, fill, pixel)
  }

  /** All the writes of `draw_filled_circle(cx, cy, r, pixel, fill)`. */
  function FilledTrace(cx: int, cy: int, r: int, fill: Word, pixel: Word): seq<Plot> {
    Discs(cx, cy, Arc(r, 0), 0, fill, pixel)
  }

  /**
   * The loop state `(x, y, error)` of the midpoint algorithm for radius `r`:
   * the error identity, and, while the loop runs, `x` is the column of row
   * `y`; once it stops, row `y` has no column right of the diagonal.
   */
  predicate Midpoint(r: int, x: int, y: int, error: int) {
    error == x * x + y * y - r * r - r &&
    0 <= y && x <= r &&
    (r >= 0 ==> error >= -2 * x - 1) &&
    (x >= y ==> (error < 0 || x == 0) && x == ArcX(r, y)) &&
    (x < y ==> ArcX(r, y) < y)
  }

  /** Below the column found, no column between it and `x0` is inside. */
  lemma {:induction false} DescendFinds(r: int, k: int, x0: int, x: int)
    requires 0 <= x <= x0
    requires x == 0 || x * x + k * k < r * r + r
    requires r * r + r <= (x + 1) * (x + 1) + k * k
    ensures Descend(r, k, x0) == x
    decreases x0
  {
    if x0 > x {
      SquareMono(x + 1, x0);
      DescendFinds(r, k, x0 - 1, x);
    }
  }

  /** If column `x + 1` is not inside, the search ends at `x` or further in (or at 0). */
  lemma {:induction false} DescendAtMost(r: int, k: int, x0: int, x: int)
    requires -1 <= x
    requires r * r + r <= (x + 1) * (x + 1) + k * k
    ensures Descend(r, k, x0) <= Max(x, 0)
    decreases x0
  {
    if x0 > Max(x, 0) {
      SquareMono(x + 1, x0);
      DescendAtMost(r, k, x0 - 1, x);
    }
  }

  /** If column `x` is inside, the search stops no further in than `x`. */
  lemma {:induction false} DescendAtLeast(r: int, k: int, x0: int, x: int)
    requires 0 <= x <= x0
    requires x * x + k * k < r * r + r
    ensures Descend(r, k, x0) >= x
    decreases x0
  {
    if x0 > x && !(x0 * x0 + k * k < r * r + r) {
      DescendAtLeast(r, k, x0 - 1, x);
    }
  }

  /** The search ends inside, and either where it began or with the next column out not inside. */
  lemma {:induction false} DescendBand(r: int, k: int, x0: int)
    ensures Descend(r, k, x0) <= 0 || Descend(r, k, x0) * Descend(r, k, x0) + k * k < r * r + r
    ensures Descend(r, k, x0) == x0 || r * r + r <= (Descend(r, k, x0) + 1) * (Descend(r, k, x0) + 1) + k * k
    decreases x0
  {
    if !(x0 <= 0 || x0 * x0 + k * k < r * r + r) {
      DescendBand(r, k, x0 - 1);
    }
  }

  /** The state before the first iteration: `error = -r`, `x = r`, `y = 0`. */
  lemma MidpointStart(r: int)
    ensures Midpoint(r, r, 0, -r)
  {
    if r >= 0 {
      DescendFinds(r, 0, r, r);
    }
  }

  /** `error <= 0` while the loop runs. */
  lemma MidpointNotOutside(r: int, x: int, y: int, error: int)
    requires Midpoint(r, x, y, error) && x >= y
    ensures error <= 0
  {
    if x == 0 {
      assert r * r >= 0;
    }
  }

  /** An iteration in which the error stays negative: only `y` advances. */
  lemma MidpointKeep(r: int, x: int, y: int, error: int)
    requires Midpoint(r, x, y, error) && x >= y
    requires error + 2 * y + 1 < 0
    ensures Midpoint(r, x, y + 1, error + 2 * y + 1)
  {
    assert (y + 1) * (y + 1) == y * y + 2 * y + 1;
    assert (x + 1) * (x + 1) == x * x + 2 * x + 1;
    if x >= y + 1 {
      DescendFinds(r, y + 1, r, x);
    } else {
      DescendAtMost(r, y + 1, r, x);
    }
  }

  /** An iteration in which the error reaches 0: `x` also moves one column in. */
  lemma MidpointMove(r: int, x: int, y: int, error: int)
    requires Midpoint(r, x, y, error) && x >= y
    requires error + 2 * y + 1 >= 0
    ensures Midpoint(r, x - 1, y + 1, error + 2 * y + 1 - 2 * x + 1)
  {
    MidpointNotOutside(r, x, y, error);
    assert (y + 1) * (y + 1) == y * y + 2 * y + 1;
    assert (x - 1) * (x - 1) == x * x - 2 * x + 1;
    if x - 1 >= y + 1 {
      DescendFinds(r, y + 1, r, x - 1);
    } else {
      DescendAtMost(r, y + 1, r, x - 1);
    }
  }

  /**
   * One iteration: `error += y; y++; error += y;` and, when the error is
   * no longer negative, `error += -x; x--; error += -x;`.
   */
  lemma MidpointStep(r: int, x: int, y: int, error: int)
    requires Midpoint(r, x, y, error) && x >= y
    ensures var e1 := error + y + (y + 1);
            if e1 >= 0 then Midpoint(r, x - 1, y + 1, e1 - x - (x - 1))
            else Midpoint(r, x, y + 1, e1)
  {
    if error + y + (y + 1) >= 0 {
      MidpointMove(r, x, y, error);
    } else {
      MidpointKeep(r, x, y, error);
    }
  }

  /** A row whose column is right of the diagonal contributes its eight writes and the rest follow. */
  lemma OutlineStep(cx: int, cy: int, r: int, y: nat, x: int, c: Word)
    requires x == ArcX(r, y) && x >= y
    ensures Outline(cx, cy, Arc(r, y), y, c) == Octants(cx, cy, x, y, c) + Outline(cx, cy, Arc(r, y + 1), y + 1, c)
  {
    assert Arc(r, y) == [x] + Arc(r, y + 1);
    assert Arc(r, y)[1..] == Arc(r, y + 1);
  }

  /** A row whose column is right of the diagonal contributes its filled row and the rest follow. */
  lemma DiscsStep(cx: int, cy: int, r: int, y: nat, x: int, fill: Word, pixel: Word)
    requires x == ArcX(r, y) && x >= y
    ensures Discs(cx, cy, Arc(r, y), y, fill, pixel) == Disc(cx, cy, x, y, fill, pixel) + Discs(cx, cy, Arc(r, y + 1), y + 1, fill, pixel)
  {
    assert Arc(r, y) == [x] + Arc(r, y + 1);
    assert Arc(r, y)[1..] == Arc(r, y + 1);
  }

  /** `draw_circle`. */
  method Circle(cx: int, cy: int, radius: int, pixel: Word) returns (t: seq<Plot>)
    ensures t == CircleTrace(cx, cy, radius, pixel)
  {
    var error := -radius;
    var x := radius;
    var y := 0;
    t := [];
    MidpointStart(radius);
    while x >= y
      invariant Midpoint(radius, x, y, error)
      invariant CircleTrace(cx, cy, radius, pixel) == t + Outline(cx, cy, Arc(radius, y), y, pixel)
      decreases x - y
    {
      OutlineStep(cx, cy, radius, y, x, pixel);
      AppendAssoc(t, Octants(cx, cy, x, y, pixel), Outline(cx, cy, Arc(radius, y + 1), y + 1, pixel));
      t := t + Octants(cx, cy, x, y, pixel);
      MidpointStep(radius, x, y, error);
      error := error + y;
      y := y + 1;
      error := error + y;
      if error >= 0 {
        error := error + -x;
        x := x - 1;
        error := error + -x;
      }
    }
  }

  /**
   * The body of the `draw_filled_circle` loop: the four fill spans, then
   * the eight outline points.
   */
  method DiscRow(cx: int, cy: int, x: int, y: int, fill: Word, pixel: Word) returns (t: seq<Plot>)
    ensures t == Disc(cx, cy, x, y, fill, pixel)
  {
    var s1 := HLine(cx + x, cx - x, cy + y, fill);
    var s2 := HLine(cx + x, cx - x, cy - y, fill);
    var s3 := HLine(cx + y, cx - y, cy + x, fill);
    var s4 := HLine(cx + y, cx - y, cy - x, fill);
    t := s1 + s2 + s3 + s4 + Octants(cx, cy, x, y, pixel);
  }

  /** `draw_filled_circle`. */
  method FilledCircle(cx: int, cy: int, radius: int, pixel: Word, fill: Word) returns (t: seq<Plot>)
    ensures t == FilledTrace(cx, cy, radius, fill, pixel)
  {
    var error := -radius;
    var x := radius;
    var y := 0;
    t := [];
    MidpointStart(radius);
    while x >= y
      invariant Midpoint(radius, x, y, error)
      invariant FilledTrace(cx, cy, radius, fill, pixel) == t + Discs(cx, cy, Arc(radius, y), y, fill, pixel)
      decreases x - y
    {
      DiscsStep(cx, cy, radius, y, x, fill, pixel);
      AppendAssoc(t, Disc(cx, cy, x, y, fill, pixel), Discs(cx, cy, Arc(radius, y + 1), y + 1, fill, pixel));
      var row := DiscRow(cx, cy, x, y, fill, pixel);
      t := t + row;
      MidpointStep(radius, x, y, error);
      error := error + y;
      y := y + 1;
      error := error + y;
      if error >= 0 {
        error := error + -x;
        x := x - 1;
        error := error + -x;
      }
    }
  }

  // Properties of the outline.

  /** `p` is one of the eight mirror images `(cx ± x, cy ± y)`, `(cx ± y, cy ± x)`. */
  predicate OnOctants(cx: int, cy: int, x: int, y: int, p: Point) {
    (Abs(p.0 - cx) == x && Abs(p.1 - cy) == y) || (Abs(p.0 - cx) == y && Abs(p.1 - cy) == x)
  }

  /** The eight writes of one iteration go to exactly the eight mirror images of `(x, y)`. */
  lemma OctantsExactly(cx: int, cy: int, x: int, y: int, c: Word)
    requires 0 <= x && 0 <= y
    ensures forall p: Point :: Writes(Octants(cx, cy, x, y, c), p) <==> OnOctants(cx, cy, x, y, p)
    ensures forall i :: 0 <= i < |Octants(cx, cy, x, y, c)| ==> Octants(cx, cy, x, y, c)[i].colour == c
  {
    var o := Octants(cx, cy, x, y, c);
    forall p: Point | OnOctants(cx, cy, x, y, p)
      ensures Writes(o, p)
    {
      var i :=
        if Abs(p.0 - cx) == x && Abs(p.1 - cy) == y then
          (if p.0 == cx + x then (if p.1 == cy + y then 0 else 2) else (if p.1 == cy + y then 1 else 3))
        else
          (if p.0 == cx + y then (if p.1 == cy + x then 4 else 6) else (if p.1 == cy + x then 5 else 7));
      assert At(o[i]) == p;
    }
  }

  /** Later rows never have a column further out: `Descend` is monotone in the row. */
  lemma {:induction false} DescendMonotone(r: int, k1: int, k2: int, x: int)
    requires 0 <= k1 <= k2
    ensures Descend(r, k2, x) <= Descend(r, k1, x)
    decreases x
  {
    if !(x <= 0 || x * x + k1 * k1 < r * r + r) {
      SquareMono(k1, k2);
      DescendMonotone(r, k1, k2, x - 1);
    }
  }

  /**
   * Entry `i` of `Arc(r, k)` is the column of row `k + i`, between the
   * diagonal and the radius, and the row after the last is past the diagonal.
   */
  lemma {:induction false} ArcShape(r: int, k: nat)
    ensures forall i :: 0 <= i < |Arc(r, k)| ==> Arc(r, k)[i] == ArcX(r, k + i) && k + i <= Arc(r, k)[i] <= r
    ensures ArcX(r, k + |Arc(r, k)|) < k + |Arc(r, k)|
    decreases r + 1 - k
  {
    if ArcX(r, k) >= k {
      ArcShape(r, k + 1);
      assert Arc(r, k) == [ArcX(r, k)] + Arc(r, k + 1);
    }
  }

  /** The loop visits row `y` exactly when the column of row `y` is not left of the diagonal. */
  lemma ArcRows(r: int, y: int)
    requires 0 <= y
    ensures y < |Arc(r, 0)| <==> y <= ArcX(r, y)
  {
    ArcShape(r, 0);
    var n := |Arc(r, 0)|;
    if y >= n {
      DescendMonotone(r, n, y, r);
    } else {
      assert Arc(r, 0)[y] == ArcX(r, y);
    }
  }

  /** The outline writes for rows `k`, `k + 1`, … go to exactly the mirror images of those rows' points. */
  lemma {:induction false} OutlineExactly(cx: int, cy: int, arc: seq<int>, k: int, c: Word)
    requires 0 <= k
    requires forall i :: 0 <= i < |arc| ==> 0 <= arc[i]
    ensures forall p: Point :: Writes(Outline(cx, cy, arc, k, c), p) <==>
              exists i :: 0 <= i < |arc| && OnOctants(cx, cy, arc[i], k + i, p)
    ensures forall i :: 0 <= i < |Outline(cx, cy, arc, k, c)| ==> Outline(cx, cy, arc, k, c)[i].colour == c
    decreases |arc|
  {
    if arc != [] {
      OctantsExactly(cx, cy, arc[0], k, c);
      OutlineExactly(cx, cy, arc[1..], k + 1, c);
      forall p: Point
        ensures Writes(Outline(cx, cy, arc, k, c), p) <==> exists i :: 0 <= i < |arc| && OnOctants(cx, cy, arc[i], k + i, p)
      {
        OutlineExactlyStep(cx, cy, arc, k, c, p);
      }
    }
  }

  /** The inductive step of `OutlineExactly` for one point `p`. */
  lemma OutlineExactlyStep(cx: int, cy: int, arc: seq<int>, k: int, c: Word, p: Point)
    requires 1 <= |arc| && 0 <= k && 0 <= arc[0]
    requires Writes(Outline(cx, cy, arc[1..], k + 1, c), p) <==>
             exists j :: 0 <= j < |arc[1..]| && OnOctants(cx, cy, arc[1..][j], k + 1 + j, p)
    ensures Writes(Outline(cx, cy, arc, k, c), p) <==> exists i :: 0 <= i < |arc| && OnOctants(cx, cy, arc[i], k + i, p)
  {
    var o := Octants(cx, cy, arc[0], k, c);
    var rest := Outline(cx, cy, arc[1..], k + 1, c);
    OctantsExactly(cx, cy, arc[0], k, c);
    WritesAppend(o, rest, p, c);
    if Writes(rest, p) {
      var j :| 0 <= j < |arc[1..]| && OnOctants(cx, cy, arc[1..][j], k + 1 + j, p);
      assert OnOctants(cx, cy, arc[j + 1], k + (j + 1), p);
    }
    if exists i :: 0 <= i < |arc| && OnOctants(cx, cy, arc[i], k + i, p) {
      var i :| 0 <= i < |arc| && OnOctants(cx, cy, arc[i], k + i, p);
      if i > 0 {
        assert OnOctants(cx, cy, arc[1..][i - 1], k + 1 + (i - 1), p);
      }
    }
  }

  /**
   * `draw_circle` writes exactly the mirror images of the points `(x, y)`
   * with `0 <= y <= x <= r` where `x` is the column of row `y`.
   */
  lemma CircleExactly(cx: int, cy: int, r: int, c: Word)
    ensures forall p: Point :: Writes(CircleTrace(cx, cy, r, c), p) <==>
              exists y :: 0 <= y <= ArcX(r, y) && OnOctants(cx, cy, ArcX(r, y), y, p)
    ensures forall i :: 0 <= i < |CircleTrace(cx, cy, r, c)| ==> CircleTrace(cx, cy, r, c)[i].colour == c
  {
    var arc := Arc(r, 0);
    ArcShape(r, 0);
    OutlineExactly(cx, cy, arc, 0, c);
    forall p: Point
      ensures Writes(CircleTrace(cx, cy, r, c), p) <==> exists y :: 0 <= y <= ArcX(r, y) && OnOctants(cx, cy, ArcX(r, y), y, p)
    {
      if Writes(CircleTrace(cx, cy, r, c), p) {
        var i :| 0 <= i < |arc| && OnOctants(cx, cy, arc[i], 0 + i, p);
        assert 0 <= i <= ArcX(r, i) && OnOctants(cx, cy, ArcX(r, i), i, p);
      }
      if exists y :: 0 <= y <= ArcX(r, y) && OnOctants(cx, cy, ArcX(r, y), y, p) {
        var y :| 0 <= y <= ArcX(r, y) && OnOctants(cx, cy, ArcX(r, y), y, p);
        ArcRows(r, y);
        assert OnOctants(cx, cy, arc[y], 0 + y, p);
      }
    }
  }

  /** Whatever `draw_circle` writes, it also writes its mirror images in both axes and in the diagonal. */
  lemma CircleSymmetric(cx: int, cy: int, r: int, c: Word, p: Point)
    requires Writes(CircleTrace(cx, cy, r, c), p)
    ensures Writes(CircleTrace(cx, cy, r, c), (2 * cx - p.0, p.1))
    ensures Writes(CircleTrace(cx, cy, r, c), (p.0, 2 * cy - p.1))
    ensures Writes(CircleTrace(cx, cy, r, c), (cx + (p.1 - cy), cy + (p.0 - cx)))
  {
    CircleExactly(cx, cy, r, c);
    var y :| 0 <= y <= ArcX(r, y) && OnOctants(cx, cy, ArcX(r, y), y, p);
    assert OnOctants(cx, cy, ArcX(r, y), y, (2 * cx - p.0, p.1));
    assert OnOctants(cx, cy, ArcX(r, y), y, (p.0, 2 * cy - p.1));
    assert OnOctants(cx, cy, ArcX(r, y), y, (cx + (p.1 - cy), cy + (p.0 - cx)));
  }

  /**
   * For `r >= 1` the point `(x, y)` of a row of the first octant lies inside
   * `x*x + y*y < r*r + r` (the circle of radius `r + 1/2`, up to the
   * constant 1/4), and the point one column further out does not.
   */
  lemma ArcOnRing(r: int, y: int)
    requires 1 <= r && 0 <= y <= ArcX(r, y)
    ensures ArcX(r, y) * ArcX(r, y) + y * y < r * r + r <= (ArcX(r, y) + 1) * (ArcX(r, y) + 1) + y * y
  {
    DescendBand(r, y, r);
    if ArcX(r, y) == r {
      assert (r + 1) * (r + 1) == r * r + 2 * r + 1;
    }
  }

  /** Every point `draw_circle` writes, at offsets `u`, `v` from the centre, is on the ring of `ArcOnRing`. */
  lemma CircleOnRing(cx: int, cy: int, r: int, c: Word, p: Point)
    requires 1 <= r
    requires Writes(CircleTrace(cx, cy, r, c), p)
    ensures var u, v := Abs(p.0 - cx), Abs(p.1 - cy);
            u * u + v * v < r * r + r &&
            r * r + r <= (Max(u, v) + 1) * (Max(u, v) + 1) + Min(u, v) * Min(u, v)
  {
    CircleExactly(cx, cy, r, c);
    var y :| 0 <= y <= ArcX(r, y) && OnOctants(cx, cy, ArcX(r, y), y, p);
    ArcOnRing(r, y);
  }

  /** A negative radius writes nothing; radius 0 writes the centre eight times. */
  lemma CircleDegenerate(cx: int, cy: int, r: int, c: Word, fill: Word)
    requires r <= 0
    ensures r < 0 ==> CircleTrace(cx, cy, r, c) == [] && FilledTrace(cx, cy, r, fill, c) == []
    ensures r == 0 ==> |CircleTrace(cx, cy, r, c)| == 8 &&
                       forall i :: 0 <= i < 8 ==> CircleTrace(cx, cy, r, c)[i] == Plot(cx, cy, c)
  {
    if r == 0 {
      assert Arc(0, 1) == [];
      assert Arc(0, 0) == [0] && Arc(0, 0)[1..] == [];
      assert CircleTrace(cx, cy, r, c) == Octants(cx, cy, 0, 0, c) + [];
    }
  }

  /** Sliding one step along the diagonal direction from a point right of it moves inwards. */
  lemma DiagonalSlide(a: int, k: int)
    requires k + 1 <= a
    ensures (a - 1) * (a - 1) + (k + 1) * (k + 1) <= a * a + k * k
  {
    assert (a - 1) * (a - 1) == a * a - 2 * a + 1;
    assert (k + 1) * (k + 1) == k * k + 2 * k + 1;
  }

  /** Consecutive rows of the first octant: the column stays or moves in by exactly one. */
  lemma ArcStep(r: int, k: nat)
    requires k + 1 <= ArcX(r, k + 1)
    ensures ArcX(r, k + 1) == ArcX(r, k) || ArcX(r, k + 1) == ArcX(r, k) - 1
  {
    var a, b := ArcX(r, k), ArcX(r, k + 1);
    DescendMonotone(r, k, k + 1, r);
    DescendBand(r, k, r);
    DiagonalSlide(a, k);
    DescendAtLeast(r, k + 1, r, a - 1);
  }

  /**
   * The outline has no gaps: for `r >= 0` the first octant is not empty,
   * consecutive rows move in by at most one column, and its last point is
   * on the diagonal or next to it, where the mirrored octant continues.
   */
  lemma ArcConnected(r: int)
    requires 0 <= r
    ensures 1 <= |Arc(r, 0)| && Arc(r, 0)[0] == r
    ensures forall i :: 0 <= i < |Arc(r, 0)| - 1 ==> Arc(r, 0)[i + 1] == Arc(r, 0)[i] || Arc(r, 0)[i + 1] == Arc(r, 0)[i] - 1
    ensures Arc(r, 0)[|Arc(r, 0)| - 1] <= |Arc(r, 0)|
  {
    var arc := Arc(r, 0);
    ArcShape(r, 0);
    DescendFinds(r, 0, r, r);
    forall i | 0 <= i < |arc| - 1
      ensures arc[i + 1] == arc[i] || arc[i + 1] == arc[i] - 1
    {
      assert arc[i] == ArcX(r, i) && arc[i + 1] == ArcX(r, i + 1) && i + 1 <= arc[i + 1];
      ArcStep(r, i);
    }
    var n := |arc|;
    var a := arc[n - 1];
    assert a == ArcX(r, n - 1);
    if a > n {
      DescendBand(r, n - 1, r);
      DiagonalSlide(a, n - 1);
      DescendAtLeast(r, n, r, a - 1);
    }
  }

  // Properties of the filled circle.

  /** An iteration for a row `k >= 1` whose column is right of the diagonal never touches the centre row. */
  lemma DiscMissesRow(cx: int, cy: int, x: int, k: int, fill: Word, pixel: Word, px: int)
    requires 1 <= k <= x
    ensures !Writes(Disc(cx, cy, x, k, fill, pixel), (px, cy))
  {
    var p := (px, cy);
    var h1, h2 := HSpan(cx + x, cx - x, cy + k, fill), HSpan(cx + x, cx - x, cy - k, fill);
    var h3, h4 := HSpan(cx + k, cx - k, cy + x, fill), HSpan(cx + k, cx - k, cy - x, fill);
    HSpanExactly(cx + x, cx - x, cy + k, fill);
    HSpanExactly(cx + x, cx - x, cy - k, fill);
    HSpanExactly(cx + k, cx - k, cy + x, fill);
    HSpanExactly(cx + k, cx - k, cy - x, fill);
    OctantsExactly(cx, cy, x, k, pixel);
    WritesAppend(h1, h2, p, fill);
    WritesAppend(h1 + h2, h3, p, fill);
    WritesAppend(h1 + h2 + h3, h4, p, fill);
    WritesAppend(h1 + h2 + h3 + h4, Octants(cx, cy, x, k, pixel), p, fill);
  }

  /** Rows `k >= 1` and further out never touch the centre row. */
  lemma {:induction false} DiscsMissRow(cx: int, cy: int, arc: seq<int>, k: int, fill: Word, pixel: Word, px: int)
    requires 1 <= k
    requires forall i :: 0 <= i < |arc| ==> k + i <= arc[i]
    ensures !Writes(Discs(cx, cy, arc, k, fill, pixel), (px, cy))
    decreases |arc|
  {
    if arc != [] {
      DiscsMissRow(cx, cy, arc[1..], k + 1, fill, pixel, px);
      DiscsMissRowStep(cx, cy, arc, k, fill, pixel, px);
    }
  }

  /** The inductive step of `DiscsMissRow`: one more row in front that misses the centre row. */
  lemma DiscsMissRowStep(cx: int, cy: int, arc: seq<int>, k: int, fill: Word, pixel: Word, px: int)
    requires 1 <= |arc| && 1 <= k <= arc[0]
    requires !Writes(Discs(cx, cy, arc[1..], k + 1, fill, pixel), (px, cy))
    ensures !Writes(Discs(cx, cy, arc, k, fill, pixel), (px, cy))
  {
    DiscMissesRow(cx, cy, arc[0], k, fill, pixel, px);
    WritesAppend(Disc(cx, cy, arc[0], k, fill, pixel), Discs(cx, cy, arc[1..], k + 1, fill, pixel), (px, cy), fill);
  }

  /** The first iteration alone leaves the inside of the centre row with the fill colour. */
  lemma FirstDiscInside(cx: int, cy: int, r: int, fill: Word, pixel: Word, c: Picture, px: int)
    requires cx - r < px < cx + r
    ensures (px, cy) in Paint(c, Disc(cx, cy, r, 0, fill, pixel)) && Paint(c, Disc(cx, cy, r, 0, fill, pixel))[(px, cy)] == fill
  {
    var p := (px, cy);
    var h1, h2 := HSpan(cx + r, cx - r, cy + 0, fill), HSpan(cx + r, cx - r, cy - 0, fill);
    var h3, h4 := HSpan(cx + 0, cx - 0, cy + r, fill), HSpan(cx + 0, cx - 0, cy - r, fill);
    var o := Octants(cx, cy, r, 0, pixel);
    HSpanExactly(cx + r, cx - r, cy + 0, fill);
    HSpanExactly(cx + r, cx - r, cy - 0, fill);
    HSpanExactly(cx + 0, cx - 0, cy + r, fill);
    HSpanExactly(cx + 0, cx - 0, cy - r, fill);
    OctantsExactly(cx, cy, r, 0, pixel);
    WritesAppend(h1, h2, p, fill);
    WritesAppend(h1 + h2, h3, p, fill);
    WritesAppend(h1 + h2 + h3, h4, p, fill);
    WritesAppend(h1 + h2 + h3 + h4, o, p, fill);
    PaintUniform(c, Disc(cx, cy, r, 0, fill, pixel), p, fill);
  }

  /** The first iteration alone leaves both ends of the centre row with the outline colour. */
  lemma FirstDiscEnds(cx: int, cy: int, r: int, fill: Word, pixel: Word, c: Picture, px: int)
    requires px == cx - r || px == cx + r
    ensures (px, cy) in Paint(c, Disc(cx, cy, r, 0, fill, pixel)) && Paint(c, Disc(cx, cy, r, 0, fill, pixel))[(px, cy)] == pixel
  {
    var h := HSpan(cx + r, cx - r, cy + 0, fill) + HSpan(cx + r, cx - r, cy - 0, fill) +
             HSpan(cx + 0, cx - 0, cy + r, fill) + HSpan(cx + 0, cx - 0, cy - r, fill);
    var o := Octants(cx, cy, r, 0, pixel);
    assert At(o[0]) == (cx + r, cy) && At(o[1]) == (cx - r, cy);
    PaintLastWins(c, h, o, (px, cy), pixel);
  }

  /** One point of the centre row, between `cx - r` and `cx + r`, after `draw_filled_circle`. */
  lemma FilledCentrePoint(cx: int, cy: int, r: int, fill: Word, pixel: Word, c: Picture, px: int)
    requires 0 <= r && cx - r <= px <= cx + r
    ensures (px, cy) in Paint(c, FilledTrace(cx, cy, r, fill, pixel))
    ensures Paint(c, FilledTrace(cx, cy, r, fill, pixel))[(px, cy)] == if px == cx - r || px == cx + r then pixel else fill
  {
    DescendFinds(r, 0, r, r);
    DiscsStep(cx, cy, r, 0, r, fill, pixel);
    var first := Disc(cx, cy, r, 0, fill, pixel);
    var rest := Discs(cx, cy, Arc(r, 1), 1, fill, pixel);
    ArcShape(r, 1);
    PaintAppend(c, first, rest);
    if px == cx - r || px == cx + r {
      FirstDiscEnds(cx, cy, r, fill, pixel, c, px);
    } else {
      FirstDiscInside(cx, cy, r, fill, pixel, c, px);
    }
    DiscsMissRow(cx, cy, Arc(r, 1), 1, fill, pixel, px);
    PaintMissed(Paint(c, first), rest, (px, cy));
  }

  /**
   * `draw_filled_circle` with `r >= 0` leaves the centre row with the fill
   * colour strictly between `cx - r` and `cx + r` and the outline colour at
   * both ends: the first iteration fills the row and then outlines it, and
   * no later iteration touches it.
   */
  lemma FilledCentreRow(cx: int, cy: int, r: int, fill: Word, pixel: Word, c: Picture)
    requires 0 <= r
    ensures forall px :: cx - r < px < cx + r ==>
              (px, cy) in Paint(c, FilledTrace(cx, cy, r, fill, pixel)) && Paint(c, FilledTrace(cx, cy, r, fill, pixel))[(px, cy)] == fill
    ensures (cx - r, cy) in Paint(c, FilledTrace(cx, cy, r, fill, pixel)) && Paint(c, FilledTrace(cx, cy, r, fill, pixel))[(cx - r, cy)] == pixel
    ensures (cx + r, cy) in Paint(c, FilledTrace(cx, cy, r, fill, pixel)) && Paint(c, FilledTrace(cx, cy, r, fill, pixel))[(cx + r, cy)] == pixel
  {
    forall px | cx - r <= px <= cx + r
      ensures (px, cy) in Paint(c, FilledTrace(cx, cy, r, fill, pixel))
      ensures Paint(c, FilledTrace(cx, cy, r, fill, pixel))[(px, cy)] == if px == cx - r || px == cx + r then pixel else fill
    {
      FilledCentrePoint(cx, cy, r, fill, pixel, c, px);
    }
  }
}

=== FILE: lines.dfy ===
/**
 * `draw_line`: an integer line stepper.  The axis with the larger delta (the
 * major axis) advances by one on every step; an accumulator started at half
 * the major delta gains the minor delta each step, and whenever it reaches
 * the major delta the minor axis advances by one.  The start point is not
 * written; the end point is.  A vertical or horizontal line first draws the
 * whole span and then runs the same stepper over it again.
 */
module Lines {
  import opened Bits
  import opened Canvas
  import opened Spans

  /**
   * `a` moved `m` units in the direction the C code derives from the delta
   * `d` with `d > 0 ? 1 : -1`: up when `d` is positive, down otherwise.
   */
  function Move(a: int, d: int, m: int): int {
    if d > 0 then a + m else a - m
  }

  /** `a == q * d + r` with `0 <= r < d` determines the quotient and the remainder. */
  lemma DivUnique(a: int, d: int, q: int, r: int)
    requires 0 < d && 0 <= r < d && a == q * d + r
    ensures a / d == q && a % d == r
  {
    var e := q - a / d;
    assert e * d == a % d - r;
    if e > 0 {
      MulAtLeast(e, d);
    }
  }

  /** A positive multiple of `d` is at least `d`. */
  lemma {:induction false} MulAtLeast(e: int, d: nat)
    requires e >= 1
    ensures e * d >= d
    decreases e
  {
    if e > 1 {
      MulAtLeast(e - 1, d);
      assert e * d == (e - 1) * d + d;
    }
  }

  /**
   * The accumulator after `k` steps with major delta `major` and minor delta
   * `minor`: it starts at `major >> 1`, gains `minor` per step and gives
   * back `major` whenever it reaches `major`.
   */
  function Rem(major: nat, minor: nat, k: nat): int
    requires 0 < major
  {
    if k == 0 then major / 2
    else if Rem(major, minor, k - 1) + minor >= major then Rem(major, minor, k - 1) + minor - major
    else Rem(major, minor, k - 1) + minor
  }

  /** The minor-axis offset after `k` steps: how many times the accumulator gave back `major`. */
  function Minor(major: nat, minor: nat, k: nat): int
    requires 0 < major
  {
    if k == 0 then 0
    else if Rem(major, minor, k - 1) + minor >= major then Minor(major, minor, k - 1) + 1
    else Minor(major, minor, k - 1)
  }

  /** `(a + 1) * b == a * b + b`. */
  lemma MulSucc(a: int, b: int)
    ensures (a + 1) * b == a * b + b
  {
  }

  /**
   * The accumulator stays in `[0, major)`, and together with the offset
   * it accounts for the whole running total `major / 2 + k * minor`.
   */
  lemma {:induction false} MinorAccounts(major: nat, minor: nat, k: nat)
    requires 0 < major && minor <= major
    ensures 0 <= Rem(major, minor, k) < major
    ensures major / 2 + k * minor == Minor(major, minor, k) * major + Rem(major, minor, k)
  {
    if k > 0 {
      MinorAccounts(major, minor, k - 1);
      MulSucc(k - 1, minor);
      MulSucc(Minor(major, minor, k - 1), major);
    }
  }

  /**
   * The offset is the ideal line's offset `k * minor / major`, rounded
   * half up: `(major / 2 + k * minor) / major`.
   */
  lemma MinorRounded(major: nat, minor: nat, k: nat)
    requires 0 < major && minor <= major
    ensures Minor(major, minor, k) == (major / 2 + k * minor) / major
  {
    MinorAccounts(major, minor, k);
    DivUnique(major / 2 + k * minor, major, Minor(major, minor, k), Rem(major, minor, k));
  }

  /** Every offset is between 0 and the minor delta, and after `major` steps it is exactly `minor`. */
  lemma MinorEnd(major: nat, minor: nat)
    requires 0 < major && minor <= major
    ensures Minor(major, minor, major) == minor
  {
    MinorRounded(major, minor, major);
    DivUnique(major / 2 + major * minor, major, minor, major / 2);
  }

  /** With no minor delta the offset never moves. */
  lemma {:induction false} MinorFlat(major: nat, k: nat)
    requires 0 < major
    ensures Minor(major, 0, k) == 0 && Rem(major, 0, k) == major / 2
  {
    if k > 0 {
      MinorFlat(major, k - 1);
    }
  }

  /**
   * Step `i` (from 0) of the general stepping of `draw_line`, in closed
   * form: `i + 1` along the major axis from the start, and `Minor(…, i + 1)`
   * along the minor axis.
   */
  function StepAt(x1: int, y1: int, x2: int, y2: int, c: Word, i: nat): Plot
    requires i < Max(Abs(x2 - x1), Abs(y2 - y1))
  {
    var dxabs, dyabs := Abs(x2 - x1), Abs(y2 - y1);
    if dxabs >= dyabs then Plot(Move(x1, x2 - x1, i + 1), Move(y1, y2 - y1, Minor(dxabs, dyabs, i + 1)), c)
    else Plot(Move(x1, x2 - x1, Minor(dyabs, dxabs, i + 1)), Move(y1, y2 - y1, i + 1), c)
  }

  /** The first `k` writes of the general stepping, one step after the other. */
  function Steps(x1: int, y1: int, x2: int, y2: int, c: Word, k: nat): seq<Plot>
    requires k <= Max(Abs(x2 - x1), Abs(y2 - y1))
  {
    if k == 0 then [] else Steps(x1, y1, x2, y2, c, k - 1) + [StepAt(x1, y1, x2, y2, c, k - 1)]
  }

  /** The writes of the general stepping of `draw_line`: one per unit of the larger delta. */
  function Stepping(x1: int, y1: int, x2: int, y2: int, c: Word): seq<Plot> {
    Steps(x1, y1, x2, y2, c, Max(Abs(x2 - x1), Abs(y2 - y1)))
  }

  /** The first `k` writes are steps `0` to `k - 1` in closed form. */
  lemma {:induction false} StepsAt(x1: int, y1: int, x2: int, y2: int, c: Word, k: nat)
    requires k <= Max(Abs(x2 - x1), Abs(y2 - y1))
    ensures |Steps(x1, y1, x2, y2, c, k)| == k
    ensures forall i :: 0 <= i < k ==> Steps(x1, y1, x2, y2, c, k)[i] == StepAt(x1, y1, x2, y2, c, i)
  {
    if k > 0 {
      StepsAt(x1, y1, x2, y2, c, k - 1);
    }
  }

  /** The straight span `draw_line` draws first when the line is vertical or horizontal. */
  function Straight(x1: int, y1: int, x2: int, y2: int, c: Word): seq<Plot> {
    if x1 == x2 then VSpan(x1, y1, y2, c)
    else if y1 == y2 then HSpan(x1, x2, y1, c)
    else []
  }

  /** All the writes of `draw_line(x1, y1, x2, y2)`. */
  function Segment(x1: int, y1: int, x2: int, y2: int, c: Word): seq<Plot> {
    Straight(x1, y1, x2, y2, c) + Stepping(x1, y1, x2, y2, c)
  }

  /**
   * `draw_line`: the straight span when the line is vertical or horizontal,
   * then the stepper along the axis with the larger delta.
   */
  method Line(x1: int, y1: int, x2: int, y2: int, pixel: Word) returns (t: seq<Plot>)
    ensures t == Segment(x1, y1, x2, y2, pixel)
  {
    t := [];
    if x1 == x2 {
      t := VLine(x1, y1, y2, pixel);
    } else if y1 == y2 {
      t := HLine(x1, x2, y1, pixel);
    }
    var steps;
    if Abs(x2 - x1) >= Abs(y2 - y1) {
      steps := AlongX(x1, y1, x2, y2, pixel);
    } else {
      steps := AlongY(x1, y1, x2, y2, pixel);
    }
    t := t + steps;
  }

  /** The stepper of `draw_line` when `|dx| >= |dy|`: x advances on every step. */
  method AlongX(x1: int, y1: int, x2: int, y2: int, pixel: Word) returns (t: seq<Plot>)
    requires Abs(x2 - x1) >= Abs(y2 - y1)
    ensures t == Stepping(x1, y1, x2, y2, pixel)
  {
    var dx := x2 - x1;
    var dy := y2 - y1;
    var dxabs := Abs(dx);
    var dyabs := Abs(dy);
    var sdx := if dx > 0 then 1 else -1;
    var sdy := if dy > 0 then 1 else -1;
    var y := dxabs / 2;
    var px := x1;
    var py := y1;
    t := [];
    var i := 0;
    while i < dxabs
      invariant 0 <= i <= dxabs
      invariant 0 < dxabs ==> 0 <= y < dxabs && y == Rem(dxabs, dyabs, i)
      invariant 0 < dxabs ==> px == Move(x1, dx, i) && py == Move(y1, dy, Minor(dxabs, dyabs, i))
      invariant t == Steps(x1, y1, x2, y2, pixel, i)
    {
      y := y + dyabs;
      if y >= dxabs {
        y := y - dxabs;
        py := py + sdy;
      }
      px := px + sdx;
      assert Rem(dxabs, dyabs, i + 1) == y;
      assert StepAt(x1, y1, x2, y2, pixel, i) == Plot(Move(x1, dx, i + 1), Move(y1, dy, Minor(dxabs, dyabs, i + 1)), pixel);
      t := t + [Plot(px, py, pixel)];
      i := i + 1;
    }
  }

  /** The stepper of `draw_line` when `|dx| < |dy|`: y advances on every step. */
  method AlongY(x1: int, y1: int, x2: int, y2: int, pixel: Word) returns (t: seq<Plot>)
    requires Abs(x2 - x1) < Abs(y2 - y1)
    ensures t == Stepping(x1, y1, x2, y2, pixel)
  {
    var dx := x2 - x1;
    var dy := y2 - y1;
    var dxabs := Abs(dx);
    var dyabs := Abs(dy);
    var sdx := if dx > 0 then 1 else -1;
    var sdy := if dy > 0 then 1 else -1;
    var x := dyabs / 2;
    var px := x1;
    var py := y1;
    t := [];
    var i := 0;
    while i < dyabs
      invariant 0 <= i <= dyabs
      invariant 0 <= x < dyabs && x == Rem(dyabs, dxabs, i)
      invariant px == Move(x1, dx, Minor(dyabs, dxabs, i)) && py == Move(y1, dy, i)
      invariant t == Steps(x1, y1, x2, y2, pixel, i)
    {
      x := x + dxabs;
      if x >= dyabs {
        x := x - dyabs;
        px := px + sdx;
      }
      py := py + sdy;
      assert Rem(dyabs, dxabs, i + 1) == x;
      assert StepAt(x1, y1, x2, y2, pixel, i) == Plot(Move(x1, dx, Minor(dyabs, dxabs, i + 1)), Move(y1, dy, i + 1), pixel);
      t := t + [Plot(px, py, pixel)];
      i := i + 1;
    }
  }

  /** The point a step of the stepper moves from: the start, then each write in turn. */
  function From(x1: int, y1: int, s: seq<Plot>, i: nat): Point
    requires i < |s|
  {
    if i == 0 then (x1, y1) else At(s[i - 1])
  }

  /** Step `i` of the stepper, from the point before it. */
  lemma SteppingStep(x1: int, y1: int, x2: int, y2: int, c: Word, i: nat)
    requires i < |Stepping(x1, y1, x2, y2, c)|
    ensures var s, p := Stepping(x1, y1, x2, y2, c), From(x1, y1, Stepping(x1, y1, x2, y2, c), i);
            if Abs(x2 - x1) >= Abs(y2 - y1) then
              s[i].x == Move(p.0, x2 - x1, 1) && (s[i].y == p.1 || s[i].y == Move(p.1, y2 - y1, 1))
            else
              s[i].y == Move(p.1, y2 - y1, 1) && (s[i].x == p.0 || s[i].x == Move(p.0, x2 - x1, 1))
  {
    var s := Stepping(x1, y1, x2, y2, c);
    var dxabs, dyabs := Abs(x2 - x1), Abs(y2 - y1);
    StepsAt(x1, y1, x2, y2, c, Max(dxabs, dyabs));
    if dxabs >= dyabs {
      assert s[i] == Plot(Move(x1, x2 - x1, i + 1), Move(y1, y2 - y1, Minor(dxabs, dyabs, i + 1)), c);
      assert Minor(dxabs, dyabs, i + 1) == Minor(dxabs, dyabs, i) || Minor(dxabs, dyabs, i + 1) == Minor(dxabs, dyabs, i) + 1;
      if i > 0 {
        assert s[i - 1] == Plot(Move(x1, x2 - x1, i), Move(y1, y2 - y1, Minor(dxabs, dyabs, i)), c);
      }
    } else {
      assert s[i] == Plot(Move(x1, x2 - x1, Minor(dyabs, dxabs, i + 1)), Move(y1, y2 - y1, i + 1), c);
      assert Minor(dyabs, dxabs, i + 1) == Minor(dyabs, dxabs, i) || Minor(dyabs, dxabs, i + 1) == Minor(dyabs, dxabs, i) + 1;
      if i > 0 {
        assert s[i - 1] == Plot(Move(x1, x2 - x1, Minor(dyabs, dxabs, i)), Move(y1, y2 - y1, i), c);
      }
    }
  }

  /**
   * Each write of the stepper moves one unit along the major axis and zero
   * or one unit, towards the end point, along the minor axis, starting from
   * the start point.
   */
  lemma SteppingSteps(x1: int, y1: int, x2: int, y2: int, c: Word)
    ensures forall i :: 0 <= i < |Stepping(x1, y1, x2, y2, c)| ==>
              var s, p := Stepping(x1, y1, x2, y2, c), From(x1, y1, Stepping(x1, y1, x2, y2, c), i);
              if Abs(x2 - x1) >= Abs(y2 - y1) then
                s[i].x == Move(p.0, x2 - x1, 1) && (s[i].y == p.1 || s[i].y == Move(p.1, y2 - y1, 1))
              else
                s[i].y == Move(p.1, y2 - y1, 1) && (s[i].x == p.0 || s[i].x == Move(p.0, x2 - x1, 1))
  {
    forall i | 0 <= i < |Stepping(x1, y1, x2, y2, c)|
      ensures var s, p := Stepping(x1, y1, x2, y2, c), From(x1, y1, Stepping(x1, y1, x2, y2, c), i);
              if Abs(x2 - x1) >= Abs(y2 - y1) then
                s[i].x == Move(p.0, x2 - x1, 1) && (s[i].y == p.1 || s[i].y == Move(p.1, y2 - y1, 1))
              else
                s[i].y == Move(p.1, y2 - y1, 1) && (s[i].x == p.0 || s[i].x == Move(p.0, x2 - x1, 1))
    {
      SteppingStep(x1, y1, x2, y2, c, i);
    }
  }

  /**
   * The stepper makes `max(|dx|, |dy|)` writes, never writes the start
   * point, and (when it writes at all) ends on the end point.
   */
  lemma SteppingEnds(x1: int, y1: int, x2: int, y2: int, c: Word)
    ensures |Stepping(x1, y1, x2, y2, c)| == Max(Abs(x2 - x1), Abs(y2 - y1))
    ensures !Writes(Stepping(x1, y1, x2, y2, c), (x1, y1))
    ensures |Stepping(x1, y1, x2, y2, c)| > 0 ==> At(Stepping(x1, y1, x2, y2, c)[|Stepping(x1, y1, x2, y2, c)| - 1]) == (x2, y2)
  {
    var s := Stepping(x1, y1, x2, y2, c);
    var dxabs, dyabs := Abs(x2 - x1), Abs(y2 - y1);
    StepsAt(x1, y1, x2, y2, c, Max(dxabs, dyabs));
    if dxabs >= dyabs && dxabs > 0 {
      MinorEnd(dxabs, dyabs);
      assert s[dxabs - 1] == Plot(Move(x1, x2 - x1, dxabs), Move(y1, y2 - y1, dyabs), c);
    } else if dxabs < dyabs {
      MinorEnd(dyabs, dxabs);
      assert s[dyabs - 1] == Plot(Move(x1, x2 - x1, dxabs), Move(y1, y2 - y1, dyabs), c);
    }
  }

  /** Coincident end points make exactly one write, of that point. */
  lemma SegmentPoint(x: int, y: int, c: Word)
    ensures Segment(x, y, x, y, c) == [Plot(x, y, c)]
  {
    assert Stepping(x, y, x, y, c) == [];
  }

  /**
   * For a vertical or horizontal line the stepper only writes again points
   * of the span already drawn.
   */
  lemma SegmentStraightRepeats(x1: int, y1: int, x2: int, y2: int, c: Word)
    requires x1 == x2 || y1 == y2
    ensures forall i :: 0 <= i < |Stepping(x1, y1, x2, y2, c)| ==>
              Writes(Straight(x1, y1, x2, y2, c), At(Stepping(x1, y1, x2, y2, c)[i]))
  {
    var s := Stepping(x1, y1, x2, y2, c);
    StepsAt(x1, y1, x2, y2, c, Max(Abs(x2 - x1), Abs(y2 - y1)));
    forall i | 0 <= i < |s|
      ensures Writes(Straight(x1, y1, x2, y2, c), At(s[i]))
    {
      if x1 == x2 {
        VSpanExactly(x1, y1, y2, c);
        MinorFlat(Abs(y2 - y1), i + 1);
      } else {
        HSpanExactly(x1, x2, y1, c);
        MinorFlat(Abs(x2 - x1), i + 1);
      }
    }
  }

  /** Every line ends by writing its end point. */
  lemma SegmentEnds(x1: int, y1: int, x2: int, y2: int, c: Word)
    ensures |Segment(x1, y1, x2, y2, c)| > 0
    ensures At(Segment(x1, y1, x2, y2, c)[|Segment(x1, y1, x2, y2, c)| - 1]) == (x2, y2)
  {
    SteppingEnds(x1, y1, x2, y2, c);
    if x1 == x2 && y1 == y2 {
      SegmentPoint(x1, y1, c);
    }
  }
}

=== FILE: pixel_format.dfy ===
/**
 * Pixel formats of the Linux framebuffer surface: the channel layout reported
 * by the device, the alpha fix-up applied when the surface is opened, the
 * channel masks, and packing colours into one 32-bit pixel word.
 *
 * The screen-info fields are `__u32` in the kernel's records; they are kept
 * as bounded naturals (`U32`) and wrapped explicitly where the C code does
 * unsigned 32-bit arithmetic on them.  Pixel words are `Bits.Word`.
 */
module PixelFormat {

  import opened Bits

  /** 2^32, the modulus of unsigned 32-bit arithmetic. */
  const Modulus: int := 0x1_0000_0000

  /** An unsigned 32-bit screen-info field. */
  type U32 = n: nat | n < 0x1_0000_0000

  /** `a` and `b` are equal modulo `2^32`. */
  predicate Congruent(a: int, b: int) {
    (a - b) % Modulus == 0
  }

  /** Unsigned 32-bit wrap-around of an integer result. */
  function Wrap(n: int): (r: U32)
    ensures 0 <= n < Modulus ==> r == n
    ensures Congruent(r, n)
  {
    n % Modulus
  }

  /** Where one colour channel lives inside a pixel word (`struct fb_bitfield`). */
  datatype Bitfield = Bitfield(offset: U32, length: U32)

  /** The variable screen information of the device (`struct fb_var_screeninfo`), the fields the surface uses. */
  datatype VarInfo = VarInfo(
    xres: U32, yres: U32,
    xresVirtual: U32, yresVirtual: U32,
    xoffset: U32, yoffset: U32,
    bitsPerPixel: U32,
    grayscale: U32,
    red: Bitfield, green: Bitfield, blue: Bitfield, transp: Bitfield)

  /** The fixed screen information of the device (`struct fb_fix_screeninfo`), the field the surface uses. */
  datatype FixInfo = FixInfo(lineLength: U32)

  /** Sum of the red, green and blue channel lengths, in unsigned 32-bit arithmetic. */
  function RgbLength(v: VarInfo): U32 {
    Wrap(v.red.length + v.green.length + v.blue.length)
  }

  /**
   * The format the surface asks the device for when it opens: grayscale off,
   * and when the colour depth has bits left over after red, green and blue,
   * those bits become an alpha channel placed right after them.
   */
  function FixupFormat(v: VarInfo): (w: VarInfo)
    ensures w.grayscale == 0
    ensures RgbLength(v) < v.bitsPerPixel ==>
              w.transp.offset == RgbLength(v) && w.transp.offset + w.transp.length == v.bitsPerPixel
    ensures !(RgbLength(v) < v.bitsPerPixel) ==> w.transp == v.transp
    ensures w.(grayscale := v.grayscale, transp := v.transp) == v
  {
    var rgb := RgbLength(v);
    if rgb < v.bitsPerPixel then
      v.(grayscale := 0, transp := Bitfield(rgb, v.bitsPerPixel - rgb))
    else
      v.(grayscale := 0)
  }

  /** After the fix-up the four channel lengths add up to the colour depth whenever red, green and blue left bits over. */
  lemma FixupFillsDepth(v: VarInfo)
    requires RgbLength(v) < v.bitsPerPixel
    ensures var w := FixupFormat(v);
      RgbLength(w) == RgbLength(v) && Wrap(RgbLength(w) + w.transp.length) == w.bitsPerPixel
  {
  }

  /** Fixing up an already fixed-up format changes nothing. */
  lemma FixupIdempotent(v: VarInfo)
    ensures FixupFormat(FixupFormat(v)) == FixupFormat(v)
  {
  }

  /** The channel lies inside the 32-bit word and is at most one byte wide. */
  predicate ByteChannel(c: Bitfield) {
    c.length <= 8 && c.offset + c.length <= 32
  }

  /** `((1 << length) - 1) << offset`: the bits of a pixel word that belong to channel `c` (the `rmask` … `amask` fields). */
  function Mask(c: Bitfield): (m: Word)
    ensures forall i :: 0 <= i < 32 ==> (m[i] <==> c.offset <= i < c.offset + c.length)
  {
    Shl(Ones(c.length), c.offset)
  }

  /** Exactly the `length` bits starting at `offset` are in the mask. */
  lemma MaskBits(c: Bitfield, i: nat)
    requires i < 32
    ensures Mask(c)[i] <==> c.offset <= i < c.offset + c.length
  {
  }

  /** `(uint8_t)((p & mask) >> offset)`: the value of channel `c` in pixel `p` (the RED, GREEN, BLUE and ALPHA accessors). */
  function Extract(p: Word, c: Bitfield): (x: Octet)
    ensures forall k :: 0 <= k < 8 ==> (x[k] <==> k < c.length && c.offset + k < 32 && p[c.offset + k])
  {
    Low(Shr(And(p, Mask(c)), c.offset))
  }

  /** `x << offset` for a `uint8_t` value `x`. */
  function Place(x: Octet, c: Bitfield): Word
  {
    Shl(Widen(x), c.offset)
  }

  /** The value is below `1 << length`: it has no bit at or above the channel's length. */
  predicate Fits(x: Octet, c: Bitfield) {
    forall k :: c.length <= k < 8 ==> !x[k]
  }

  /** The two channels share no bit: `mask_a & mask_b == 0`. */
  predicate Disjoint(a: Bitfield, b: Bitfield)
  {
    And(Mask(a), Mask(b)) == Zero
  }

  lemma DisjointBit(a: Bitfield, b: Bitfield, i: nat)
    requires Disjoint(a, b) && i < 32
    ensures !(Mask(a)[i] && Mask(b)[i])
  {
    assert And(Mask(a), Mask(b))[i] == Zero[i];
  }

  /** A value that fits its channel, shifted into place, has bits only inside the channel. */
  lemma PlaceInside(x: Octet, c: Bitfield, i: nat)
    requires Fits(x, c) && i < 32
    requires Place(x, c)[i]
    ensures Mask(c)[i]
  {
  }

  /**
   * A pixel that agrees with `x << offset` on every bit of a byte-wide
   * channel holds `x` in that channel, whatever its other bits are.
   */
  lemma ExtractPlaced(p: Word, x: Octet, c: Bitfield)
    requires ByteChannel(c) && Fits(x, c)
    requires forall i :: 0 <= i < 32 && Mask(c)[i] ==> p[i] == Place(x, c)[i]
    ensures Extract(p, c) == x
  {
    var e := Extract(p, c);
    forall k | 0 <= k < 8
      ensures e[k] == x[k]
    {
      if k < c.length {
        assert Mask(c)[k + c.offset];
      }
    }
  }

  // ---------------------------------------------------------------------
  // Colours (`fb_rgb`, `fb_rgba`, `black`, `white`).

  /** Bit `i` of a word holds bit `i - offset` of `x` once `x` is shifted to channel `c`'s offset. */
  predicate Carries(x: Octet, c: Bitfield, i: int) {
    c.offset <= i < c.offset + 8 && x[i - c.offset]
  }

  /** `fb_rgb`: red, green and blue each shifted to its channel offset and OR-ed; values are not cut to the channel widths. */
  function Rgb(v: VarInfo, r: Octet, g: Octet, b: Octet): (w: Word)
    ensures forall i :: 0 <= i < 32 ==> (w[i] <==> Carries(r, v.red, i) || Carries(g, v.green, i) || Carries(b, v.blue, i))
  {
    Or(Or(Place(r, v.red), Place(g, v.green)), Place(b, v.blue))
  }

  /** `fb_rgba`: as `fb_rgb`, with alpha shifted to the transparency offset and OR-ed as well. */
  function Rgba(v: VarInfo, r: Octet, g: Octet, b: Octet, a: Octet): (w: Word)
    ensures forall i :: 0 <= i < 32 ==>
              (w[i] <==> Carries(r, v.red, i) || Carries(g, v.green, i) || Carries(b, v.blue, i) || Carries(a, v.transp, i))
  {
    Or(Rgb(v, r, g, b), Place(a, v.transp))
  }

  /** Red, green and blue are byte-wide channels that pairwise share no bit. */
  predicate RgbLayout(v: VarInfo) {
    ByteChannel(v.red) && ByteChannel(v.green) && ByteChannel(v.blue) &&
    Disjoint(v.red, v.green) && Disjoint(v.red, v.blue) && Disjoint(v.green, v.blue)
  }

  /** All four channels are byte-wide and pairwise share no bit. */
  predicate RgbaLayout(v: VarInfo) {
    RgbLayout(v) && ByteChannel(v.transp) &&
    Disjoint(v.red, v.transp) && Disjoint(v.green, v.transp) && Disjoint(v.blue, v.transp)
  }

  /** Extracting a channel from `fb_rgb`'s pixel gives back the value packed into it. */
  lemma RgbRoundTrip(v: VarInfo, r: Octet, g: Octet, b: Octet)
    requires RgbLayout(v)
    requires Fits(r, v.red) && Fits(g, v.green) && Fits(b, v.blue)
    ensures Extract(Rgb(v, r, g, b), v.red) == r
    ensures Extract(Rgb(v, r, g, b), v.green) == g
    ensures Extract(Rgb(v, r, g, b), v.blue) == b
  {
    var p := Rgb(v, r, g, b);
    forall i | 0 <= i < 32
      ensures Mask(v.red)[i] ==> p[i] == Place(r, v.red)[i]
      ensures Mask(v.green)[i] ==> p[i] == Place(g, v.green)[i]
      ensures Mask(v.blue)[i] ==> p[i] == Place(b, v.blue)[i]
    {
      DisjointBit(v.red, v.green, i);
      DisjointBit(v.red, v.blue, i);
      DisjointBit(v.green, v.blue, i);
      if Place(r, v.red)[i] { PlaceInside(r, v.red, i); }
      if Place(g, v.green)[i] { PlaceInside(g, v.green, i); }
      if Place(b, v.blue)[i] { PlaceInside(b, v.blue, i); }
    }
    ExtractPlaced(p, r, v.red);
    ExtractPlaced(p, g, v.green);
    ExtractPlaced(p, b, v.blue);
  }

  /** Extracting a channel from `fb_rgba`'s pixel gives back the value packed into it. */
  lemma RgbaRoundTrip(v: VarInfo, r: Octet, g: Octet, b: Octet, a: Octet)
    requires RgbaLayout(v)
    requires Fits(r, v.red) && Fits(g, v.green) && Fits(b, v.blue) && Fits(a, v.transp)
    ensures Extract(Rgba(v, r, g, b, a), v.red) == r
    ensures Extract(Rgba(v, r, g, b, a), v.green) == g
    ensures Extract(Rgba(v, r, g, b, a), v.blue) == b
    ensures Extract(Rgba(v, r, g, b, a), v.transp) == a
  {
    var p := Rgba(v, r, g, b, a);
    forall i | 0 <= i < 32
      ensures Mask(v.red)[i] ==> p[i] == Place(r, v.red)[i]
      ensures Mask(v.green)[i] ==> p[i] == Place(g, v.green)[i]
      ensures Mask(v.blue)[i] ==> p[i] == Place(b, v.blue)[i]
      ensures Mask(v.transp)[i] ==> p[i] == Place(a, v.transp)[i]
    {
      DisjointBit(v.red, v.green, i);
      DisjointBit(v.red, v.blue, i);
      DisjointBit(v.green, v.blue, i);
      DisjointBit(v.red, v.transp, i);
      DisjointBit(v.green, v.transp, i);
      DisjointBit(v.blue, v.transp, i);
      if Place(r, v.red)[i] { PlaceInside(r, v.red, i); }
      if Place(g, v.green)[i] { PlaceInside(g, v.green, i); }
      if Place(b, v.blue)[i] { PlaceInside(b, v.blue, i); }
      if Place(a, v.transp)[i] { PlaceInside(a, v.transp, i); }
    }
    ExtractPlaced(p, r, v.red);
    ExtractPlaced(p, g, v.green);
    ExtractPlaced(p, b, v.blue);
    ExtractPlaced(p, a, v.transp);
  }

  /** The surface's black, `fb_rgb(0, 0, 0)`, is the word 0 in every format. */
  lemma BlackIsZero(v: VarInfo)
    ensures Rgb(v, ZeroOctet, ZeroOctet, ZeroOctet) == Zero
  {
    var p := Rgb(v, ZeroOctet, ZeroOctet, ZeroOctet);
    forall i | 0 <= i < 32
      ensures p[i] == Zero[i]
    {
    }
  }

  /** The surface's white, `fb_rgb(0xFF, 0xFF, 0xFF)`, has every bit of every byte-wide colour channel set. */
  lemma WhiteIsFull(v: VarInfo)
    requires ByteChannel(v.red) && ByteChannel(v.green) && ByteChannel(v.blue)
    ensures And(Rgb(v, FullOctet, FullOctet, FullOctet), Mask(v.red)) == Mask(v.red)
    ensures And(Rgb(v, FullOctet, FullOctet, FullOctet), Mask(v.green)) == Mask(v.green)
    ensures And(Rgb(v, FullOctet, FullOctet, FullOctet), Mask(v.blue)) == Mask(v.blue)
  {
    var p := Rgb(v, FullOctet, FullOctet, FullOctet);
    forall i | 0 <= i < 32
      ensures And(p, Mask(v.red))[i] == Mask(v.red)[i]
      ensures And(p, Mask(v.green))[i] == Mask(v.green)[i]
      ensures And(p, Mask(v.blue))[i] == Mask(v.blue)[i]
    {
    }
  }
}

=== FILE: polygons.dfy ===
/**
 * `draw_tri` and `draw_polygon`: closed chains of `draw_line` calls.
 *
 * `draw_polygon` passes its arguments to `draw_line` in the order
 * `(vx[i], vx[i+1], vy[i], vy[i+1])`, while `draw_line` takes
 * `(x1, y1, x2, y2)`: edge `i` runs from `(vx[i], vx[i+1])` to
 * `(vy[i], vy[i+1])`.  `PolygonAsWritten` models that call;
 * `PolygonEdges` passes the vertices in the intended order, and the
 * lemmas show that it closes the polygon while the call as written can
 * miss a vertex.
 */
module Polygons {
  import opened Bits
  import opened Canvas
  import opened Spans
  import opened Lines

  /** The writes of `draw_tri`: the edges 1 to 2, 2 to 3 and 3 to 1. */
  function Triangle(x1: int, y1: int, x2: int, y2: int, x3: int, y3: int, c: Word): seq<Plot> {
    Segment(x1, y1, x2, y2, c) + Segment(x2, y2, x3, y3, c) + Segment(x3, y3, x1, y1, c)
  }

  /** `draw_tri`. */
  method Tri(x1: int, y1: int, x2: int, y2: int, x3: int, y3: int, pixel: Word) returns (t: seq<Plot>)
    ensures t == Triangle(x1, y1, x2, y2, x3, y3, pixel)
  {
    var a := Line(x1, y1, x2, y2, pixel);
    var b := Line(x2, y2, x3, y3, pixel);
    var c := Line(x3, y3, x1, y1, pixel);
    t := a + b + c;
  }

  /** A trace whose last write goes to `p` writes `p`. */
  lemma LastWrites(t: seq<Plot>, p: Point)
    requires |t| > 0 && At(t[|t| - 1]) == p
    ensures Writes(t, p)
  {
  }

  /** Each edge of a triangle ends on the vertex it runs to, so all three vertices are written. */
  lemma TriangleVertices(x1: int, y1: int, x2: int, y2: int, x3: int, y3: int, c: Word)
    ensures Writes(Triangle(x1, y1, x2, y2, x3, y3, c), (x1, y1))
    ensures Writes(Triangle(x1, y1, x2, y2, x3, y3, c), (x2, y2))
    ensures Writes(Triangle(x1, y1, x2, y2, x3, y3, c), (x3, y3))
    ensures At(Triangle(x1, y1, x2, y2, x3, y3, c)[|Triangle(x1, y1, x2, y2, x3, y3, c)| - 1]) == (x1, y1)
  {
    var a, b, d := Segment(x1, y1, x2, y2, c), Segment(x2, y2, x3, y3, c), Segment(x3, y3, x1, y1, c);
    SegmentEnds(x1, y1, x2, y2, c);
    SegmentEnds(x2, y2, x3, y3, c);
    SegmentEnds(x3, y3, x1, y1, c);
    LastWrites(a, (x2, y2));
    LastWrites(b, (x3, y3));
    LastWrites(d, (x1, y1));
    WritesAppend(a, b, (x2, y2), c);
    WritesAppend(a, b, (x3, y3), c);
    WritesAppend(a + b, d, (x1, y1), c);
    WritesAppend(a + b, d, (x2, y2), c);
    WritesAppend(a + b, d, (x3, y3), c);
  }

  /** Index `i + 1` wrapped at `n`, as `(i + 1) % n` in C for `0 <= i < n`. */
  function Next(i: int, n: int): (j: int)
    requires 0 <= i < n
    ensures 0 <= j < n
    ensures j == if i == n - 1 then 0 else i + 1
  {
    (i + 1) % n
  }

  /** The writes of the first `k` calls of `draw_polygon` as written. */
  function PolygonAsWritten(vx: seq<int>, vy: seq<int>, n: int, k: int, c: Word): seq<Plot>
    requires 0 <= k <= n <= |vx| && n <= |vy|
    decreases k
  {
    if k == 0 then []
    else PolygonAsWritten(vx, vy, n, k - 1, c) + Segment(vx[k - 1], vx[Next(k - 1, n)], vy[k - 1], vy[Next(k - 1, n)], c)
  }

  /** The writes of the first `k` edges of the polygon with vertices `(vx[i], vy[i])`. */
  function PolygonEdges(vx: seq<int>, vy: seq<int>, n: int, k: int, c: Word): seq<Plot>
    requires 0 <= k <= n <= |vx| && n <= |vy|
    decreases k
  {
    if k == 0 then []
    else PolygonEdges(vx, vy, n, k - 1, c) + Segment(vx[k - 1], vy[k - 1], vx[Next(k - 1, n)], vy[Next(k - 1, n)], c)
  }

  /** One more call of `draw_polygon` as written appends the line from `(vx[i], vx[i+1])` to `(vy[i], vy[i+1])`. */
  lemma AsWrittenStep(vx: seq<int>, vy: seq<int>, n: int, i: int, c: Word)
    requires 0 <= i < n <= |vx| && n <= |vy|
    ensures PolygonAsWritten(vx, vy, n, i + 1, c) == PolygonAsWritten(vx, vy, n, i, c) + Segment(vx[i], vx[Next(i, n)], vy[i], vy[Next(i, n)], c)
  {
  }

  /** One more edge appends the line from vertex `i` to vertex `i + 1` (wrapping). */
  lemma EdgesStep(vx: seq<int>, vy: seq<int>, n: int, i: int, c: Word)
    requires 0 <= i < n <= |vx| && n <= |vy|
    ensures PolygonEdges(vx, vy, n, i + 1, c) == PolygonEdges(vx, vy, n, i, c) + Segment(vx[i], vy[i], vx[Next(i, n)], vy[Next(i, n)], c)
  {
  }

  /** Call `i` of `draw_polygon` as written, appended to the writes of the calls before it. */
  method AsWrittenEdge(vx: seq<int>, vy: seq<int>, n: int, i: int, pixel: Word, t: seq<Plot>) returns (t': seq<Plot>)
    requires 0 <= i < n <= |vx| && n <= |vy|
    requires t == PolygonAsWritten(vx, vy, n, i, pixel)
    ensures t' == PolygonAsWritten(vx, vy, n, i + 1, pixel)
  {
    var j := Next(i, n);
    var edge := Line(vx[i], vx[j], vy[i], vy[j], pixel);
    AsWrittenStep(vx, vy, n, i, pixel);
    t' := t + edge;
  }

  /** Edge `i` of the polygon drawn in the intended order, appended to the edges before it. */
  method FixedEdge(vx: seq<int>, vy: seq<int>, n: int, i: int, pixel: Word, t: seq<Plot>) returns (t': seq<Plot>)
    requires 0 <= i < n <= |vx| && n <= |vy|
    requires t == PolygonEdges(vx, vy, n, i, pixel)
    ensures t' == PolygonEdges(vx, vy, n, i + 1, pixel)
  {
    var j := Next(i, n);
    var edge := Line(vx[i], vy[i], vx[j], vy[j], pixel);
    EdgesStep(vx, vy, n, i, pixel);
    t' := t + edge;
  }

  /** `draw_polygon` as written: no call for `n <= 0`, otherwise one call per `i` in `[0, n)`. */
  method Polygon(vx: seq<int>, vy: seq<int>, n: int, pixel: Word) returns (t: seq<Plot>)
    requires n <= |vx| && n <= |vy|
    ensures n <= 0 ==> t == []
    ensures 0 < n ==> t == PolygonAsWritten(vx, vy, n, n, pixel)
  {
    t := [];
    if n <= 0 {
      return;
    }
    var i := 0;
    while i < n
      invariant 0 <= i <= n
      invariant t == PolygonAsWritten(vx, vy, n, i, pixel)
    {
      t := AsWrittenEdge(vx, vy, n, i, pixel, t);
      i := i + 1;
    }
  }

  /** `draw_polygon` with the vertices passed in the intended order. */
  method PolygonFixed(vx: seq<int>, vy: seq<int>, n: int, pixel: Word) returns (t: seq<Plot>)
    requires n <= |vx| && n <= |vy|
    ensures n <= 0 ==> t == []
    ensures 0 < n ==> t == PolygonEdges(vx, vy, n, n, pixel)
  {
    t := [];
    if n <= 0 {
      return;
    }
    var i := 0;
    while i < n
      invariant 0 <= i <= n
      invariant t == PolygonEdges(vx, vy, n, i, pixel)
    {
      t := FixedEdge(vx, vy, n, i, pixel, t);
      i := i + 1;
    }
  }

  /** Appending more writes keeps every earlier write. */
  lemma WritesGrow(a: seq<Plot>, b: seq<Plot>, p: Point)
    requires Writes(a, p)
    ensures Writes(a + b, p)
  {
    var i :| 0 <= i < |a| && At(a[i]) == p;
    assert (a + b)[i] == a[i];
  }

  /** Once edge `j - 1` has been drawn, vertex `Next(j - 1, n)` is written, and stays written. */
  lemma {:induction false} EdgesReachVertex(vx: seq<int>, vy: seq<int>, n: int, k: int, j: int, c: Word)
    requires 0 < j <= k <= n <= |vx| && n <= |vy|
    ensures Writes(PolygonEdges(vx, vy, n, k, c), (vx[Next(j - 1, n)], vy[Next(j - 1, n)]))
    decreases k
  {
    var v := (vx[Next(j - 1, n)], vy[Next(j - 1, n)]);
    var before := PolygonEdges(vx, vy, n, k - 1, c);
    var edge := Segment(vx[k - 1], vy[k - 1], vx[Next(k - 1, n)], vy[Next(k - 1, n)], c);
    if j == k {
      SegmentEnds(vx[k - 1], vy[k - 1], vx[Next(k - 1, n)], vy[Next(k - 1, n)], c);
      LastWrites(edge, v);
      WritesAppend(before, edge, v, c);
    } else {
      EdgesReachVertex(vx, vy, n, k - 1, j, c);
      WritesGrow(before, edge, v);
    }
  }

  /** The polygon drawn with the intended argument order writes every vertex, and ends on the first. */
  lemma PolygonVertices(vx: seq<int>, vy: seq<int>, n: int, c: Word)
    requires 0 < n <= |vx| && n <= |vy|
    ensures forall i :: 0 <= i < n ==> Writes(PolygonEdges(vx, vy, n, n, c), (vx[i], vy[i]))
    ensures At(PolygonEdges(vx, vy, n, n, c)[|PolygonEdges(vx, vy, n, n, c)| - 1]) == (vx[0], vy[0])
  {
    forall i | 0 <= i < n
      ensures Writes(PolygonEdges(vx, vy, n, n, c), (vx[i], vy[i]))
    {
      if i == 0 {
        EdgesReachVertex(vx, vy, n, n, n, c);
      } else {
        EdgesReachVertex(vx, vy, n, n, i, c);
      }
    }
    SegmentEnds(vx[n - 1], vy[n - 1], vx[0], vy[0], c);
  }

  /** The line from `(3, 3)` to `(5, 5)` steps diagonally through `(4, 4)` to `(5, 5)`. */
  lemma DiagonalFromThreeThree(c: Word)
    ensures Segment(3, 3, 5, 5, c) == [Plot(4, 4, c), Plot(5, 5, c)]
  {
    var s := Stepping(3, 3, 5, 5, c);
    StepsAt(3, 3, 5, 5, c, 2);
    assert |s| == 2;
    assert Minor(2, 2, 1) == 1 && Minor(2, 2, 2) == 2;
    assert s[0] == Plot(4, 4, c) && s[1] == Plot(5, 5, c);
  }

  /**
   * The call as written misses a vertex: for the one-vertex polygon
   * `(3, 5)` it draws the line from `(3, 3)` to `(5, 5)`, which never
   * touches `(3, 5)`; the intended call writes exactly `(3, 5)`.
   */
  lemma PolygonAsWrittenMissesVertex(c: Word)
    ensures !Writes(PolygonAsWritten([3], [5], 1, 1, c), (3, 5))
    ensures PolygonEdges([3], [5], 1, 1, c) == [Plot(3, 5, c)]
  {
    DiagonalFromThreeThree(c);
    assert PolygonAsWritten([3], [5], 1, 1, c) == [] + Segment(3, 3, 5, 5, c);
    SegmentPoint(3, 5, c);
    assert PolygonEdges([3], [5], 1, 1, c) == [] + Segment(3, 5, 3, 5, c);
  }
}

=== FILE: rects.dfy ===
/**
 * `draw_rect` and `fill_rect`: an outline made of two horizontal and two
 * vertical spans, and a filled rectangle made of one horizontal span per
 * row followed by that outline.
 */
module Rects {
  import opened Bits
  import opened Canvas
  import opened Spans

  /** The writes of `draw_rect(x, y, w, h)`: top row, bottom row, left column, right column. */
  function Border(x: int, y: int, w: int, h: int, c: Word): seq<Plot> {
    HSpan(x, x + w, y, c) + HSpan(x, x + w, y + h, c) + VSpan(x, y, y + h, c) + VSpan(x + w, y, y + h, c)
  }

  /** The fill spans of rows `y`, …, `y + n - 1`, top to bottom; none when `n <= 0`. */
  function Rows(x: int, w: int, y: int, n: int, c: Word): seq<Plot>
    decreases n
  {
    if n <= 0 then [] else Rows(x, w, y, n - 1, c) + HSpan(x, x + w, y + n - 1, c)
  }

  /** The writes of `fill_rect(x, y, w, h, pixel, fill)`: the fill rows, then the outline. */
  function FilledBox(x: int, y: int, w: int, h: int, pixel: Word, fill: Word): seq<Plot> {
    Rows(x, w, y, h, fill) + Border(x, y, w, h, pixel)
  }

  /** `p` is on the outline: on row `y` or `y + h` within the columns, or on column `x` or `x + w` within the rows. */
  predicate OnBorder(x: int, y: int, w: int, h: int, p: Point) {
    ((p.1 == y || p.1 == y + h) && Min(x, x + w) <= p.0 <= Max(x, x + w)) ||
    ((p.0 == x || p.0 == x + w) && Min(y, y + h) <= p.1 <= Max(y, y + h))
  }

  /** `draw_rect`. */
  method Rect(x: int, y: int, w: int, h: int, pixel: Word) returns (t: seq<Plot>)
    ensures t == Border(x, y, w, h, pixel)
  {
    var top := HLine(x, x + w, y, pixel);
    var bottom := HLine(x, x + w, y + h, pixel);
    var left := VLine(x, y, y + h, pixel);
    var right := VLine(x + w, y, y + h, pixel);
    t := top + bottom + left + right;
  }

  /** `fill_rect`: one fill span per row `i` with `y <= i < y + h`, then the outline. */
  method FillRect(x: int, y: int, w: int, h: int, pixel: Word, fill: Word) returns (t: seq<Plot>)
    ensures t == FilledBox(x, y, w, h, pixel, fill)
  {
    t := [];
    var i := y;
    while i < y + h
      invariant y <= i && (i <= y + h || i == y)
      invariant t == Rows(x, w, y, i - y, fill)
    {
      var row := HLine(x, x + w, i, fill);
      t := t + row;
      i := i + 1;
    }
    var border := Rect(x, y, w, h, pixel);
    t := t + border;
  }

  /**
   * `draw_rect` writes exactly the outline points, all in colour `c`; for
   * `w, h >= 0` it writes no point strictly inside.
   */
  lemma BorderExactly(x: int, y: int, w: int, h: int, c: Word)
    ensures forall p: Point :: Writes(Border(x, y, w, h, c), p) <==> OnBorder(x, y, w, h, p)
    ensures forall i :: 0 <= i < |Border(x, y, w, h, c)| ==> Border(x, y, w, h, c)[i].colour == c
    ensures 0 <= w && 0 <= h ==>
              forall p: Point :: x < p.0 < x + w && y < p.1 < y + h ==> !Writes(Border(x, y, w, h, c), p)
  {
    var h1, h2 := HSpan(x, x + w, y, c), HSpan(x, x + w, y + h, c);
    var v1, v2 := VSpan(x, y, y + h, c), VSpan(x + w, y, y + h, c);
    HSpanExactly(x, x + w, y, c);
    HSpanExactly(x, x + w, y + h, c);
    VSpanExactly(x, y, y + h, c);
    VSpanExactly(x + w, y, y + h, c);
    forall p: Point
      ensures Writes(Border(x, y, w, h, c), p) <==> OnBorder(x, y, w, h, p)
    {
      WritesAppend(h1, h2, p, c);
      WritesAppend(h1 + h2, v1, p, c);
      WritesAppend(h1 + h2 + v1, v2, p, c);
    }
  }

  /** The fill rows write exactly the points of rows `y … y + n - 1` between the two columns, all in colour `c`. */
  lemma {:induction false} RowsExactly(x: int, w: int, y: int, n: int, c: Word)
    ensures forall p: Point :: Writes(Rows(x, w, y, n, c), p) <==> y <= p.1 < y + n && Min(x, x + w) <= p.0 <= Max(x, x + w)
    ensures forall i :: 0 <= i < |Rows(x, w, y, n, c)| ==> Rows(x, w, y, n, c)[i].colour == c
    decreases n
  {
    if n > 0 {
      RowsExactly(x, w, y, n - 1, c);
      HSpanExactly(x, x + w, y + n - 1, c);
      forall p: Point
        ensures Writes(Rows(x, w, y, n, c), p) <==> y <= p.1 < y + n && Min(x, x + w) <= p.0 <= Max(x, x + w)
      {
        WritesAppend(Rows(x, w, y, n - 1, c), HSpan(x, x + w, y + n - 1, c), p, c);
      }
    }
  }

  /**
   * After `fill_rect` with `h >= 0`: outline points hold the outline colour,
   * points strictly inside hold the fill colour, and every other point is
   * as it was.
   */
  lemma FilledBoxPaint(x: int, y: int, w: int, h: int, pixel: Word, fill: Word, c: Picture, p: Point)
    requires 0 <= h
    ensures OnBorder(x, y, w, h, p) ==>
              p in Paint(c, FilledBox(x, y, w, h, pixel, fill)) && Paint(c, FilledBox(x, y, w, h, pixel, fill))[p] == pixel
    ensures Min(x, x + w) < p.0 < Max(x, x + w) && y < p.1 < y + h ==>
              p in Paint(c, FilledBox(x, y, w, h, pixel, fill)) && Paint(c, FilledBox(x, y, w, h, pixel, fill))[p] == fill
    ensures !(Min(x, x + w) <= p.0 <= Max(x, x + w) && y <= p.1 <= y + h) ==>
              (p in Paint(c, FilledBox(x, y, w, h, pixel, fill))) == (p in c) &&
              (p in c ==> Paint(c, FilledBox(x, y, w, h, pixel, fill))[p] == c[p])
  {
    var rows, border := Rows(x, w, y, h, fill), Border(x, y, w, h, pixel);
    RowsExactly(x, w, y, h, fill);
    BorderExactly(x, y, w, h, pixel);
    PaintAppend(c, rows, border);
    if OnBorder(x, y, w, h, p) {
      PaintLastWins(c, rows, border, p, pixel);
    } else {
      PaintMissed(Paint(c, rows), border, p);
      if Writes(rows, p) {
        PaintUniform(c, rows, p, fill);
      } else {
        PaintMissed(c, rows, p);
      }
    }
  }
}

=== FILE: spans.dfy ===
/**
 * `draw_hline` and `draw_vline`: a run of `fb_draw` calls along one row or
 * one column, always from the smaller coordinate up to the larger one,
 * both ends included.
 */
module Spans {
  import opened Bits
  import opened Canvas

  function Min(a: int, b: int): int {
    if a < b then a else b
  }

  function Max(a: int, b: int): int {
    if a < b then b else a
  }

  function Abs(a: int): nat {
    if a < 0 then -a else a
  }

  /** The writes of a horizontal span on row `y` between `x1` and `x2`, left to right. */
  function HSpan(x1: int, x2: int, y: int, c: Word): seq<Plot> {
    seq(Abs(x2 - x1) + 1, i => Plot(Min(x1, x2) + i, y, c))
  }

  /** The writes of a vertical span on column `x` between `y1` and `y2`, top to bottom. */
  function VSpan(x: int, y1: int, y2: int, c: Word): seq<Plot> {
    seq(Abs(y2 - y1) + 1, i => Plot(x, Min(y1, y2) + i, c))
  }

  /** `draw_hline`: the loop visits every column from the smaller end to the larger. */
  method HLine(x1: int, x2: int, y: int, pixel: Word) returns (t: seq<Plot>)
    ensures t == HSpan(x1, x2, y, pixel)
  {
    var lo, hi := x1, x2;
    if !(x1 < x2) {
      lo, hi := x2, x1;
    }
    t := [];
    var x := lo;
    while x <= hi
      invariant lo <= x <= hi + 1
      invariant |t| == x - lo
      invariant forall i :: 0 <= i < |t| ==> t[i] == Plot(lo + i, y, pixel)
    {
      t := t + [Plot(x, y, pixel)];
      x := x + 1;
    }
  }

  /** `draw_vline`: the loop visits every row from the smaller end to the larger. */
  method VLine(x: int, y1: int, y2: int, pixel: Word) returns (t: seq<Plot>)
    ensures t == VSpan(x, y1, y2, pixel)
  {
    var lo, hi := y1, y2;
    if !(y1 < y2) {
      lo, hi := y2, y1;
    }
    t := [];
    var y := lo;
    while y <= hi
      invariant lo <= y <= hi + 1
      invariant |t| == y - lo
      invariant forall i :: 0 <= i < |t| ==> t[i] == Plot(x, lo + i, pixel)
    {
      t := t + [Plot(x, y, pixel)];
      y := y + 1;
    }
  }

  /** A horizontal span writes the same points in the same order whichever end comes first. */
  lemma HSpanSymmetric(x1: int, x2: int, y: int, c: Word)
    ensures HSpan(x1, x2, y, c) == HSpan(x2, x1, y, c)
  {
    assert Abs(x2 - x1) == Abs(x1 - x2) && Min(x1, x2) == Min(x2, x1);
  }

  /** A vertical span writes the same points in the same order whichever end comes first. */
  lemma VSpanSymmetric(x: int, y1: int, y2: int, c: Word)
    ensures VSpan(x, y1, y2, c) == VSpan(x, y2, y1, c)
  {
    assert Abs(y2 - y1) == Abs(y1 - y2) && Min(y1, y2) == Min(y2, y1);
  }

  /**
   * A horizontal span writes exactly the points of row `y` between its ends,
   * each once, in ascending order, all in colour `c`.
   */
  lemma HSpanExactly(x1: int, x2: int, y: int, c: Word)
    ensures forall p: Point :: Writes(HSpan(x1, x2, y, c), p) <==> p.1 == y && Min(x1, x2) <= p.0 <= Max(x1, x2)
    ensures forall i, j :: 0 <= i < j < |HSpan(x1, x2, y, c)| ==> HSpan(x1, x2, y, c)[i].x < HSpan(x1, x2, y, c)[j].x
    ensures forall i :: 0 <= i < |HSpan(x1, x2, y, c)| ==> HSpan(x1, x2, y, c)[i].colour == c
  {
    var s := HSpan(x1, x2, y, c);
    forall p: Point | p.1 == y && Min(x1, x2) <= p.0 <= Max(x1, x2)
      ensures Writes(s, p)
    {
      assert At(s[p.0 - Min(x1, x2)]) == p;
    }
  }

  /**
   * A vertical span writes exactly the points of column `x` between its ends,
   * each once, in ascending order, all in colour `c`.
   */
  lemma VSpanExactly(x: int, y1: int, y2: int, c: Word)
    ensures forall p: Point :: Writes(VSpan(x, y1, y2, c), p) <==> p.0 == x && Min(y1, y2) <= p.1 <= Max(y1, y2)
    ensures forall i, j :: 0 <= i < j < |VSpan(x, y1, y2, c)| ==> VSpan(x, y1, y2, c)[i].y < VSpan(x, y1, y2, c)[j].y
    ensures forall i :: 0 <= i < |VSpan(x, y1, y2, c)| ==> VSpan(x, y1, y2, c)[i].colour == c
  {
    var s := VSpan(x, y1, y2, c);
    forall p: Point | p.0 == x && Min(y1, y2) <= p.1 <= Max(y1, y2)
      ensures Writes(s, p)
    {
      assert At(s[p.1 - Min(y1, y2)]) == p;
    }
  }
}

=== FILE: surface.dfy ===
/**
 * The framebuffer surface (`FBDev`): opening the device, the three buffering
 * modes, the guarded 32-bit pixel store, the byte-fill clear, presenting the
 * back buffer, and closing.
 *
 * The device and the operating system are parameters: the screen-info
 * records the ioctls return, whether the mapping and the allocation succeed,
 * the terminal, and the device memory itself, which the model receives as
 * an array of bytes.  Buffer pointers are (region, offset) references into
 * that device memory or into the heap-allocated back buffer.
 */
module Surface {

  import opened Bits
  import opened PixelFormat

  // ---------------------------------------------------------------------
  // Flags, blend selectors and console modes.

  /** Bit flags passed to `fb_init` (fbdev.h). */
  const DoubleBufferNone: nat := 1
  const DoubleBufferMem: nat := 2
  const DoubleBufferPan: nat := 4
  const SetKdModeFlag: nat := 8

  /** Blend selectors stored by `fb_blend`. */
  const BlendNone: int := 0
  const BlendAlpha: int := 1
  const BlendAdd: int := 2

  /** Console modes of `<linux/kd.h>`. */
  const KdText: int := 0
  const KdGraphics: int := 1

  /**
   * `flags & bit != 0` for a single-bit mask `bit`.  Euclidean division by a
   * positive power of two is floor division, so this is the two's-complement
   * bit of a negative `int` as well.
   */
  predicate HasFlag(flags: int, bit: nat)
    requires bit > 0
  {
    (flags / bit) % 2 == 1
  }

  /** The buffering mode a flag word selects. */
  datatype Mode = Unbuffered | ShadowCopy | DoublePan | NoBuffer

  /** The buffering mode a flag word selects: the NONE bit first, then MEM, then PAN. */
  function ModeOf(flags: int): (m: Mode)
    ensures m == NoBuffer <==>
              !HasFlag(flags, DoubleBufferNone) && !HasFlag(flags, DoubleBufferMem) && !HasFlag(flags, DoubleBufferPan)
    ensures m == ShadowCopy ==> HasFlag(flags, DoubleBufferMem)
    ensures m == DoublePan ==> HasFlag(flags, DoubleBufferPan)
  {
    if HasFlag(flags, DoubleBufferNone) then Unbuffered
    else if HasFlag(flags, DoubleBufferMem) then ShadowCopy
    else if HasFlag(flags, DoubleBufferPan) then DoublePan
    else NoBuffer
  }

  /**
   * `fb_init`, `fb_swap` and `fb_close` test the mode bits in the same order:
   * NONE wins over MEM, which wins over PAN, and no mode bit selects nothing.
   */
  lemma ModePrecedence(flags: int)
    ensures ModeOf(flags) == Unbuffered <==> HasFlag(flags, DoubleBufferNone)
    ensures ModeOf(flags) == ShadowCopy <==> !HasFlag(flags, DoubleBufferNone) && HasFlag(flags, DoubleBufferMem)
    ensures ModeOf(flags) == DoublePan <==>
              !HasFlag(flags, DoubleBufferNone) && !HasFlag(flags, DoubleBufferMem) && HasFlag(flags, DoubleBufferPan)
    ensures ModeOf(flags) == NoBuffer <==>
              !HasFlag(flags, DoubleBufferNone) && !HasFlag(flags, DoubleBufferMem) && !HasFlag(flags, DoubleBufferPan)
  {
  }

  /** Adding the NONE bit to any flag word selects unbuffered drawing, whatever else is set. */
  lemma NoneWins(flags: nat)
    requires !HasFlag(flags, DoubleBufferNone)
    ensures ModeOf(flags + DoubleBufferNone) == Unbuffered
  {
    assert flags / DoubleBufferNone == flags && (flags + DoubleBufferNone) / DoubleBufferNone == flags + 1;
    assert flags % 2 == 0 && (flags + 1) % 2 == 1;
  }

  /** Bytes mapped from the device in each mode. */
  function MapLength(m: Mode, ssize: nat): (n: nat)
    ensures m == DoublePan ==> n == 2 * ssize
    ensures m == Unbuffered || m == ShadowCopy ==> n == ssize
    ensures m == NoBuffer ==> n == 0
  {
    match m
    case Unbuffered => ssize
    case ShadowCopy => ssize
    case DoublePan => 2 * ssize
    case NoBuffer => 0
  }

  /** `ssize`: one screen's bytes, `yres_virtual * line_length`, multiplied in unsigned 32-bit arithmetic. */
  function SurfaceSize(v: VarInfo, f: FixInfo): (s: U32)
    ensures v.yresVirtual * f.lineLength < Modulus ==> s == v.yresVirtual * f.lineLength
  {
    Wrap(v.yresVirtual * f.lineLength)
  }

  /** Once the product reaches `2^32`, `ssize` is what is left of it modulo `2^32`. */
  lemma SurfaceSizeWraps(v: VarInfo, f: FixInfo)
    ensures Congruent(SurfaceSize(v, f), v.yresVirtual * f.lineLength)
  {
    var product := v.yresVirtual * f.lineLength;
    assert SurfaceSize(v, f) == Wrap(product);
  }

  // ---------------------------------------------------------------------
  // The pixel store's address arithmetic and guard.

  /**
   * `(x + xoffset) * (bits_per_pixel / 8) + (y + yoffset) * line_length`.
   * Each operand mixes an `int` with a `__u32`, so every step is unsigned
   * 32-bit arithmetic; wrapping once at the end gives the same value.  The
   * result is then widened to `long`, so it is never negative.
   */
  function Location(v: VarInfo, f: FixInfo, x: int, y: int): (l: U32)
    ensures var n := (x + v.xoffset) * (v.bitsPerPixel / 8) + (y + v.yoffset) * f.lineLength;
            (0 <= n < Modulus ==> l == n) && (n < 0 ==> n + Modulus <= l)
  {
    Wrap((x + v.xoffset) * (v.bitsPerPixel / 8) + (y + v.yoffset) * f.lineLength)
  }

  /** What a call to `fb_draw` does with its 4-byte store. */
  datatype DrawOutcome =
    | Stored   // the store lies inside the active buffer
    | Dropped  // the guard rejects the location
    | Overrun  // the guard lets the location through but the 4 bytes end past the buffer

  /** The guard as written: only a location strictly greater than `ssize` is rejected. */
  predicate PassesGuard(location: nat, ssize: nat) {
    !(location > ssize)
  }

  /** The 4-byte store starting at `location` lies inside a buffer of `ssize` bytes. */
  predicate FitsInBuffer(location: nat, ssize: nat) {
    location + 4 <= ssize
  }

  /** The outcome of a store at `location`: the written guard first, then the bounds of the buffer. */
  function Outcome(location: nat, ssize: nat): (o: DrawOutcome)
    ensures o == Stored <==> PassesGuard(location, ssize) && FitsInBuffer(location, ssize)
    ensures o == Dropped <==> !PassesGuard(location, ssize)
    ensures o == Overrun <==> ssize < location + 4 && location <= ssize
  {
    if location > ssize then Dropped
    else if location + 4 > ssize then Overrun
    else Stored
  }

  /**
   * The written guard admits four locations whose store does not fit, the
   * last being `ssize` itself: on a 640x480 screen at 32 bits per pixel,
   * `fb_draw(dev, 0, 480, c)` computes location 1228800 == ssize and passes.
   */
  lemma GuardAdmitsOverrun(v: VarInfo, f: FixInfo)
    requires v.xres == 640 && v.yres == 480 && v.yresVirtual == 480 && v.bitsPerPixel == 32
    requires v.xoffset == 0 && v.yoffset == 0 && f.lineLength == 2560
    ensures SurfaceSize(v, f) == 1228800
    ensures Location(v, f, 0, 480) == SurfaceSize(v, f)
    ensures PassesGuard(Location(v, f, 0, 480), SurfaceSize(v, f))
    ensures !FitsInBuffer(Location(v, f, 0, 480), SurfaceSize(v, f))
  {
    assert v.yresVirtual * f.lineLength == 1228800;
    assert (0 + v.xoffset) * (v.bitsPerPixel / 8) + (480 + v.yoffset) * f.lineLength == 1228800;
  }

  /** The store always writes 4 bytes, so at 16 bits per pixel the last pixel of a tightly packed screen ends past the buffer. */
  lemma LastPixelOverrunsAt16Bits(v: VarInfo, f: FixInfo)
    requires v.bitsPerPixel == 16 && v.xoffset == 0 && v.yoffset == 0
    requires 1 <= v.xres && 1 <= v.yresVirtual && f.lineLength == 2 * v.xres
    requires v.yresVirtual * f.lineLength < Modulus
    ensures Outcome(Location(v, f, v.xres - 1, v.yresVirtual - 1), SurfaceSize(v, f)) == Overrun
  {
    var n := (v.xres - 1 + v.xoffset) * (v.bitsPerPixel / 8) + (v.yresVirtual - 1 + v.yoffset) * f.lineLength;
    assert n == v.yresVirtual * f.lineLength - 2;
  }

  /** Every location is the row-major sum modulo `2^32`, whether or not the sum wraps. */
  lemma LocationWraps(v: VarInfo, f: FixInfo, x: int, y: int)
    ensures Congruent(Location(v, f, x, y), (x + v.xoffset) * (v.bitsPerPixel / 8) + (y + v.yoffset) * f.lineLength)
  {
    var n := (x + v.xoffset) * (v.bitsPerPixel / 8) + (y + v.yoffset) * f.lineLength;
    assert Location(v, f, x, y) == Wrap(n);
  }

  /** A location computed without wrapping is the plain row-major byte offset. */
  lemma LocationRowMajor(v: VarInfo, f: FixInfo, x: int, y: int)
    requires 0 <= (x + v.xoffset) * (v.bitsPerPixel / 8) + (y + v.yoffset) * f.lineLength < Modulus
    ensures Location(v, f, x, y) == (x + v.xoffset) * (v.bitsPerPixel / 8) + (y + v.yoffset) * f.lineLength
  {
  }

  /** A negative column is not rejected: x = -1 on row y lands on the last pixel slot of line y - 1. */
  lemma NegativeColumnWraps(v: VarInfo, f: FixInfo, y: nat)
    requires v.xoffset == 0 && v.yoffset == 0 && v.bitsPerPixel == 32
    requires 1 <= y && y * f.lineLength < Modulus && 4 <= f.lineLength
    ensures Location(v, f, -1, y) == (y - 1) * f.lineLength + (f.lineLength - 4)
  {
    var n := (-1 + v.xoffset) * (v.bitsPerPixel / 8) + (y + v.yoffset) * f.lineLength;
    assert n == (y - 1) * f.lineLength + (f.lineLength - 4);
  }

  /** A negative row is not rejected either: `x = 0, y = -1` wraps to `2^32 - line_length`, far above any buffer. */
  lemma NegativeRowWraps(v: VarInfo, f: FixInfo)
    requires v.xoffset == 0 && v.yoffset == 0 && 0 < f.lineLength
    ensures Location(v, f, 0, -1) == Modulus - f.lineLength
  {
    var n := (0 + v.xoffset) * (v.bitsPerPixel / 8) + (-1 + v.yoffset) * f.lineLength;
    assert n + f.lineLength == 0;
  }

  /**
   * Every pixel inside the visible resolution of a 32-bit screen without
   * panning is stored, when each line holds the visible width and the
   * virtual height covers the visible one.
   */
  lemma VisiblePixelsStored(v: VarInfo, f: FixInfo, x: int, y: int)
    requires v.bitsPerPixel == 32 && v.xoffset == 0 && v.yoffset == 0
    requires 4 * v.xres <= f.lineLength && v.yres <= v.yresVirtual
    requires v.yresVirtual * f.lineLength < Modulus
    requires 0 <= x < v.xres && 0 <= y < v.yres
    ensures Outcome(Location(v, f, x, y), SurfaceSize(v, f)) == Stored
  {
    var n := x * 4 + y * f.lineLength;
    assert (x + v.xoffset) * (v.bitsPerPixel / 8) + (y + v.yoffset) * f.lineLength == n;
    assert n + 4 <= (y + 1) * f.lineLength by {
      assert x * 4 + 4 <= f.lineLength;
    }
    assert (y + 1) * f.lineLength <= v.yresVirtual * f.lineLength by {
      MulMonotone(y + 1, v.yresVirtual, f.lineLength);
    }
    LocationRowMajor(v, f, x, y);
  }

  lemma MulMonotone(a: nat, b: nat, c: nat)
    requires a <= b
    ensures a * c <= b * c
  {
  }

  /**
   * In pan mode the first present sets `yoffset` to `ssize`, a byte count,
   * and `fb_draw` adds `yoffset * line_length` again: every later draw at a
   * non-negative position whose location does not wrap is dropped.
   */
  lemma PanDrawsDroppedAfterSwap(v: VarInfo, f: FixInfo, x: nat, y: nat)
    requires 0 < SurfaceSize(v, f) && 2 <= f.lineLength
    requires v.yoffset == SurfaceSize(v, f)
    requires (x + v.xoffset) * (v.bitsPerPixel / 8) + (y + v.yoffset) * f.lineLength < Modulus
    ensures Outcome(Location(v, f, x, y), SurfaceSize(v, f)) == Dropped
  {
    var s := SurfaceSize(v, f);
    var across := (x + v.xoffset) * (v.bitsPerPixel / 8);
    var down := (y + v.yoffset) * f.lineLength;
    MulMonotone(0, x + v.xoffset, v.bitsPerPixel / 8);
    MulMonotone(s, y + v.yoffset, f.lineLength);
    MulMonotone(2, f.lineLength, s);
    assert s < down;
    assert Location(v, f, x, y) == across + down;
  }

  // ---------------------------------------------------------------------
  // Byte buffers.

  /** The little-endian 32-bit store `*(uint32_t *)(buf + at) = w`. */
  function PutWord(s: seq<Octet>, at: nat, w: Word): (r: seq<Octet>)
    requires at + 4 <= |s|
    ensures |r| == |s|
    ensures FromBytes(r[at], r[at + 1], r[at + 2], r[at + 3]) == w
    ensures forall i :: 0 <= i < |s| && !(at <= i < at + 4) ==> r[i] == s[i]
  {
    BytesRoundTrip(w);
    s[at := ByteOf(w, 0)][at + 1 := ByteOf(w, 1)][at + 2 := ByteOf(w, 2)][at + 3 := ByteOf(w, 3)]
  }

  /** `memset(buf + from, b, n)`. */
  function Fill(s: seq<Octet>, from: nat, n: nat, b: Octet): (r: seq<Octet>)
    requires from + n <= |s|
    ensures |r| == |s|
    ensures r[from..from + n] == seq(n, _ => b)
    ensures forall i :: 0 <= i < |s| && !(from <= i < from + n) ==> r[i] == s[i]
  {
    s[..from] + seq(n, _ => b) + s[from + n..]
  }

  /** `memcpy(buf + at, t, |t|)`. */
  function Splice(s: seq<Octet>, at: nat, t: seq<Octet>): (r: seq<Octet>)
    requires at + |t| <= |s|
    ensures |r| == |s|
    ensures r[at..at + |t|] == t
    ensures forall i :: 0 <= i < |s| && !(at <= i < at + |t|) ==> r[i] == s[i]
  {
    s[..at] + t + s[at + |t|..]
  }

  // ---------------------------------------------------------------------
  // The console: `set_kd_mode`.

  /** What `set_kd_mode` finds on standard input. */
  datatype Tty = Tty(
    isTty: bool,           // isatty(STDIN_FILENO)
    name: Option<string>,  // ttyname(STDIN_FILENO), None when it fails
    opens: bool,           // open(name, O_RDWR) succeeds
    mode: Option<int>)     // the mode KDGETMODE reports, None when it fails

  datatype Option<T> = None | Some(value: T)

  /** `strstr(s, pat) != NULL`. */
  predicate Contains(s: string, pat: string)
    decreases |s|
  {
    |pat| <= |s| && (s[..|pat|] == pat || Contains(s[1..], pat))
  }

  /** The terminal is a virtual console: its name contains `/dev/tty` or `/dev/vc`. */
  predicate Interactive(name: string) {
    Contains(name, "/dev/tty") || Contains(name, "/dev/vc")
  }

  /**
   * `set_kd_mode` declines or fails: standard input is not an interactive
   * terminal, the terminal cannot be opened, or the mode query fails.
   */
  predicate Declines(t: Tty) {
    !t.isTty || t.name.None? || !Interactive(t.name.value) || !t.opens || t.mode.None?
  }

  /**
   * The result of `set_kd_mode`: the console mode in force before the switch,
   * or -1 when it declines or cannot read the current mode.
   */
  function SetKdMode(t: Tty): (saved: int)
    ensures !t.isTty || t.name.None? ==> saved == -1
    ensures t.name.Some? && !Interactive(t.name.value) ==> saved == -1
    ensures !t.opens || t.mode.None? ==> saved == -1
    ensures saved != -1 ==> t.mode == Some(saved)
  {
    if !t.isTty || t.name.None? then -1
    else if !Interactive(t.name.value) then -1
    else if !t.opens then -1
    else match t.mode
      case None => -1
      case Some(m) => m
  }

  /** When `set_kd_mode` does not decline, it returns the mode the query reported, whatever it is. */
  lemma SetKdModeSaves(t: Tty)
    requires !Declines(t)
    ensures SetKdMode(t) == t.mode.value
  {
  }

  /** A virtual console that reports text mode is saved as text mode, to be restored on close. */
  lemma ConsoleModeSaved(name: string)
    requires |name| >= 8 && name[..8] == "/dev/tty"
    ensures SetKdMode(Tty(true, Some(name), true, Some(KdText))) == KdText
  {
  }

  // ---------------------------------------------------------------------
  // Closing.

  /** Where a buffer lives: the device mapping or the heap back buffer. */
  datatype Region = Device | Heap

  /** A buffer pointer: a byte offset into a region. */
  datatype BufRef = BufRef(region: Region, offset: nat)

  /** A resource `fb_close` gives back, in order. */
  datatype Release =
    | Unmap(at: BufRef, length: nat)  // munmap(at, length)
    | FreeBack                       // free(bbuf)
    | RestoreKd(mode: int)           // set_kd_mode(kdsave)
    | CloseDevice                    // close(fd)

  /** The releases `fb_close` performs, as written: the mapping is unmapped from `fbuf`. */
  function ClosePlan(m: Mode, fbuf: BufRef, ssize: nat, kdsave: int): (plan: seq<Release>)
    ensures |plan| >= 1 && plan[|plan| - 1] == CloseDevice
    ensures RestoreKd(kdsave) in plan <==> kdsave >= 0
    ensures FreeBack in plan <==> m == ShadowCopy
    ensures m != NoBuffer ==> plan[0] == Unmap(fbuf, MapLength(m, ssize))
    ensures m == NoBuffer ==> forall r :: r in plan ==> !r.Unmap?
    ensures |plan| == (if m == NoBuffer then 0 else 1) + (if m == ShadowCopy then 1 else 0) + (if kdsave >= 0 then 1 else 0) + 1
    ensures m == ShadowCopy ==> plan[1] == FreeBack
    ensures kdsave >= 0 ==> plan[|plan| - 2] == RestoreKd(kdsave)
  {
    var unmap := match m
      case Unbuffered => [Unmap(fbuf, ssize)]
      case ShadowCopy => [Unmap(fbuf, ssize), FreeBack]
      case DoublePan => [Unmap(fbuf, ssize * 2)]
      case NoBuffer => [];
    unmap + (if kdsave >= 0 then [RestoreKd(kdsave)] else []) + [CloseDevice]
  }

  /**
   * After one present in pan mode `fbuf` points `ssize` bytes into the
   * mapping, so the written close unmaps bytes [ssize, 3 * ssize) instead of
   * the mapping [0, 2 * ssize).
   */
  lemma PanCloseAfterSwapMissesMapping(ssize: nat, kdsave: int)
    requires 0 < ssize
    ensures ClosePlan(DoublePan, BufRef(Device, ssize), ssize, kdsave)[0] != Unmap(BufRef(Device, 0), MapLength(DoublePan, ssize))
  {
  }

  /** The releases `fb_close` evidently intends: the mapping is unmapped from its start. */
  function MappedClosePlan(m: Mode, ssize: nat, kdsave: int): (plan: seq<Release>)
    ensures |plan| >= 1 && plan[|plan| - 1] == CloseDevice
    ensures RestoreKd(kdsave) in plan <==> kdsave >= 0
    ensures FreeBack in plan <==> m == ShadowCopy
    ensures m != NoBuffer ==> plan[0] == Unmap(BufRef(Device, 0), MapLength(m, ssize))
  {
    ClosePlan(m, BufRef(Device, 0), ssize, kdsave)
  }

  /** The written plan agrees with the intended one exactly when `fbuf` is at the start of the mapping. */
  lemma ClosePlanAgrees(m: Mode, fbuf: BufRef, ssize: nat, kdsave: int)
    requires m != NoBuffer
    ensures ClosePlan(m, fbuf, ssize, kdsave) == MappedClosePlan(m, ssize, kdsave) <==> fbuf == BufRef(Device, 0)
  {
    if ClosePlan(m, fbuf, ssize, kdsave) == MappedClosePlan(m, ssize, kdsave) {
      assert ClosePlan(m, fbuf, ssize, kdsave)[0] == MappedClosePlan(m, ssize, kdsave)[0];
    }
  }

  // ---------------------------------------------------------------------
  // Presenting in pan mode.

  /** The part of the surface a pan-mode present changes. */
  datatype PanView = PanView(yoffset: U32, front: BufRef, back: BufRef)

  /** The `yoffset` toggle of `fb_swap`: 0 becomes `ssize`, anything else becomes 0. */
  function PanToggle(y: U32, ssize: U32): (r: U32)
    ensures r == 0 || r == ssize
    ensures y == 0 ==> r == ssize
    ensures y != 0 ==> r == 0
  {
    if y == 0 then ssize else 0
  }

  /** A pan-mode present: toggle the offset and exchange front and back. */
  function PanSwap(p: PanView, ssize: U32): (q: PanView)
    ensures q.front == p.back && q.back == p.front
    ensures q.yoffset == PanToggle(p.yoffset, ssize)
  {
    PanView(PanToggle(p.yoffset, ssize), p.back, p.front)
  }

  /** Two presents restore the offset exactly when it starts at 0 or at `ssize`. */
  lemma PanToggleTwice(y: U32, ssize: U32)
    ensures PanToggle(PanToggle(y, ssize), ssize) == y <==> y == 0 || y == ssize
  {
  }

  /** Two pan-mode presents restore the whole pan view when the offset starts at 0 or at `ssize`. */
  lemma PanSwapTwice(p: PanView, ssize: U32)
    ensures PanSwap(PanSwap(p, ssize), ssize) == p <==> p.yoffset == 0 || p.yoffset == ssize
  {
    PanToggleTwice(p.yoffset, ssize);
    assert PanSwap(PanSwap(p, ssize), ssize).yoffset == PanToggle(PanToggle(p.yoffset, ssize), ssize);
  }

  // ---------------------------------------------------------------------
  // The surface.

  /**
   * The format `fb_init` keeps.  It sends `FixupFormat(reported)` to the
   * driver and reads the format back; `requeried` is that second answer,
   * whatever the driver made of the request (taken as sent, adjusted, or
   * refused), and `None` when the read-back fails, in which case the
   * request itself stays in place.
   */
  function Negotiated(reported: VarInfo, requeried: Option<VarInfo>): (v: VarInfo)
    ensures requeried.Some? ==> v == requeried.value
    ensures requeried.None? ==> v == FixupFormat(reported) && v.grayscale == 0 && FixupFormat(v) == v
  {
    FixupIdempotent(reported);
    if requeried.Some? then requeried.value else FixupFormat(reported)
  }

  class FBDev {
    var fdOpen: bool
    var vinfo: VarInfo
    var finfo: FixInfo
    var flags: int
    var kdsave: int
    var ssize: U32
    /** The device memory the mapping shows; the first `mapped` bytes are mapped. */
    var device: array<Octet>
    var mapped: nat
    /** The heap back buffer of shadow-copy mode. */
    var heap: array<Octet>
    var fbuf: BufRef
    var bbuf: BufRef
    var bufp: BufRef
    var blend: int

    function Mode(): Mode
      reads this`flags
    {
      ModeOf(flags)
    }

    /** The array a buffer reference points into. */
    function Buffer(r: BufRef): array<Octet>
      reads this`device, this`heap
    {
      if r.region == Device then device else heap
    }

    /** The buffer layout `fb_init` sets up for mode `m`. */
    predicate Layout(m: Mode)
      reads this`fbuf, this`bbuf, this`heap, this`ssize
    {
      match m
      case Unbuffered => fbuf == BufRef(Device, 0) && bbuf == fbuf
      case ShadowCopy => fbuf == BufRef(Device, 0) && bbuf == BufRef(Heap, 0) && heap.Length == ssize
      case DoublePan =>
        (fbuf == BufRef(Device, 0) && bbuf == BufRef(Device, ssize)) ||
        (fbuf == BufRef(Device, ssize) && bbuf == BufRef(Device, 0))
      case NoBuffer => false
    }

    /**
     * The `rmask` … `amask`, `black` and `white` fields that `fb_init` caches
     * are functions of the pixel format, which nothing changes after
     * `fb_init` but the pan offset; the model computes them from it.
     */
    function RedMask(): Word
      reads this`vinfo
    {
      Mask(vinfo.red)
    }

    function GreenMask(): Word
      reads this`vinfo
    {
      Mask(vinfo.green)
    }

    function BlueMask(): Word
      reads this`vinfo
    {
      Mask(vinfo.blue)
    }

    function AlphaMask(): Word
      reads this`vinfo
    {
      Mask(vinfo.transp)
    }

    /** `black`, `fb_rgb(dev, 0, 0, 0)`: the word 0 in every format. */
    function Black(): (w: Word)
      reads this`vinfo
      ensures w == Zero
    {
      BlackIsZero(vinfo);
      Rgb(vinfo, ZeroOctet, ZeroOctet, ZeroOctet)
    }

    /**
     * `white`, `fb_rgb(dev, 0xFF, 0xFF, 0xFF)`: the eight bits from each colour
     * channel's offset are set, and no other bit.
     */
    function White(): (w: Word)
      reads this`vinfo
      ensures forall i :: 0 <= i < 32 ==>
                (w[i] <==> vinfo.red.offset <= i < vinfo.red.offset + 8 ||
                           vinfo.green.offset <= i < vinfo.green.offset + 8 ||
                           vinfo.blue.offset <= i < vinfo.blue.offset + 8)
    {
      Rgb(vinfo, FullOctet, FullOctet, FullOctet)
    }

    /** An open surface in one of the three buffering modes: the device is mapped and the buffers are laid out for the mode. */
    predicate Valid()
      reads this`fdOpen, this`ssize, this`vinfo, this`finfo, this`mapped, this`device, this`heap,
            this`flags, this`fbuf, this`bbuf, this`bufp
    {
      fdOpen && 0 < ssize && ssize == SurfaceSize(vinfo, finfo) &&
      mapped == MapLength(Mode(), ssize) && mapped <= device.Length && device != heap &&
      Layout(Mode()) && bufp == bbuf
    }

    /** Both buffers of a valid surface lie inside their arrays. */
    lemma BuffersInside()
      requires Valid()
      ensures fbuf.offset + ssize <= Buffer(fbuf).Length
      ensures bbuf.offset + ssize <= Buffer(bbuf).Length
    {
    }

    /** The `ssize` bytes of a buffer. */
    function Contents(r: BufRef): seq<Octet>
      reads this, Buffer(r)
      requires r.offset + ssize <= Buffer(r).Length
    {
      Buffer(r)[r.offset..r.offset + ssize]
    }

    function Pan(): PanView
      reads this`vinfo, this`fbuf, this`bbuf
    {
      PanView(vinfo.yoffset, fbuf, bbuf)
    }

    /** A closed, unmapped surface. */
    constructor()
      ensures !fdOpen && mapped == 0
    {
      fdOpen := false;
      vinfo := VarInfo(0, 0, 0, 0, 0, 0, 0, 0, Bitfield(0, 0), Bitfield(0, 0), Bitfield(0, 0), Bitfield(0, 0));
      finfo := FixInfo(0);
      flags := 0;
      kdsave := -1;
      ssize := 0;
      device := new Octet[0];
      mapped := 0;
      heap := new Octet[0];
      fbuf, bbuf, bufp := BufRef(Device, 0), BufRef(Device, 0), BufRef(Device, 0);
      blend := BlendNone;
    }

    /**
     * `fb_init`.  The device's answers are parameters: `deviceOpens` (one of the
     * two device nodes opens), `reported` (the format the device reports first),
     * `requeried` (the format it reports after the fixed-up one is sent, as
     * in `Negotiated`), `fix` (the fixed
     * screen information), `fb` (the device memory) with `mapOk` (the
     * mapping is granted when it also fits `fb` and is not empty), `heapOk`
     * (the back-buffer allocation succeeds) and `tty` (standard input).
     */
    method Init(flags: int, deviceOpens: bool, reported: VarInfo, requeried: Option<VarInfo>, fix: FixInfo,
                fb: array<Octet>, mapOk: bool, heapOk: bool, tty: Tty) returns (rc: int)
      modifies this
      ensures rc == 0 || rc == -1
      ensures fdOpen == deviceOpens
      ensures deviceOpens ==> vinfo == Negotiated(reported, requeried) && finfo == fix && ssize == SurfaceSize(vinfo, finfo)
      ensures rc == 0 <==>
                deviceOpens &&
                (ModeOf(flags) != NoBuffer ==> mapOk && 0 < MapLength(ModeOf(flags), ssize) <= fb.Length) &&
                (ModeOf(flags) == ShadowCopy ==> heapOk)
      ensures rc == 0 ==>
                this.flags == flags && blend == BlendNone &&
                kdsave == (if HasFlag(flags, SetKdModeFlag) then SetKdMode(tty) else -1)
      ensures rc == 0 && ModeOf(flags) != NoBuffer ==> Valid() && device == fb && fresh(heap)
      ensures rc == 0 && ModeOf(flags) != NoBuffer ==>
                fbuf == BufRef(Device, 0) && (ModeOf(flags) == DoublePan ==> bbuf == BufRef(Device, ssize))
      ensures rc == -1 && deviceOpens && ModeOf(flags) == ShadowCopy && mapOk && 0 < ssize <= fb.Length ==> mapped == ssize
    {
      rc := -1;
      fdOpen := deviceOpens;
      if deviceOpens {
        Negotiate(reported, requeried, fix);
        var mode := ModeOf(flags);
        var buffersOk := true;
        if mode != NoBuffer {
          buffersOk := MapBuffers(mode, fb, mapOk, heapOk);
        }
        if buffersOk {
          Record(flags, tty);
          rc := 0;
        }
      }
    }

    /** The last steps of a successful `fb_init`: save the console mode when asked to, and record the flags and `BLEND_NONE`. */
    method Record(flags: int, tty: Tty)
      modifies this`kdsave, this`flags, this`blend
      ensures kdsave == (if HasFlag(flags, SetKdModeFlag) then SetKdMode(tty) else -1)
      ensures this.flags == flags && blend == BlendNone
    {
      kdsave := if HasFlag(flags, SetKdModeFlag) then SetKdMode(tty) else -1;
      this.flags := flags;
      blend := BlendNone;
    }

    /** The format negotiation of `fb_init` and the buffer size it implies. */
    method Negotiate(reported: VarInfo, requeried: Option<VarInfo>, fix: FixInfo)
      modifies this`vinfo, this`finfo, this`ssize
      ensures vinfo == Negotiated(reported, requeried) && finfo == fix && ssize == SurfaceSize(vinfo, finfo)
    {
      vinfo := Negotiated(reported, requeried);
      finfo := fix;
      ssize := SurfaceSize(vinfo, finfo);
    }

    /** The mode-specific part of `fb_init`: map the device and place the buffers. */
    method MapBuffers(mode: Mode, fb: array<Octet>, mapOk: bool, heapOk: bool) returns (ok: bool)
      requires mode != NoBuffer
      modifies this`device, this`mapped, this`heap, this`fbuf, this`bbuf, this`bufp
      ensures ok <==> mapOk && 0 < MapLength(mode, ssize) <= fb.Length && (mode == ShadowCopy ==> heapOk)
      ensures ok ==> device == fb && mapped == MapLength(mode, ssize) && Layout(mode) && bufp == bbuf
      ensures ok ==> device != heap && fresh(heap)
      ensures ok ==> fbuf == BufRef(Device, 0) && (mode == DoublePan ==> bbuf == BufRef(Device, ssize))
      ensures !ok && mode == ShadowCopy && mapOk && 0 < ssize <= fb.Length ==> mapped == ssize
    {
      heap := new Octet[0];
      var len := MapLength(mode, ssize);
      if !(mapOk && 0 < len <= fb.Length) {
        return false;
      }
      device, mapped := fb, len;
      fbuf := BufRef(Device, 0);
      if mode == Unbuffered {
        bbuf := fbuf;
      } else if mode == ShadowCopy {
        if !heapOk {
          return false;
        }
        heap := new Octet[ssize](_ => ZeroOctet);
        bbuf := BufRef(Heap, 0);
      } else {
        bbuf := BufRef(Device, ssize);
      }
      bufp := bbuf;
      ok := true;
    }

    /** `fb_size`: the visible resolution. */
    method Size() returns (w: int, h: int)
      ensures w == vinfo.xres && h == vinfo.yres
    {
      w, h := vinfo.xres, vinfo.yres;
    }

    /** `fb_blend`: selects the blend mode; nothing else changes. */
    method SetBlend(b: int)
      modifies this`blend
      ensures blend == b
    {
      blend := b;
    }

    /** The 4-byte little-endian store into the active buffer. */
    method Store(at: nat, src: Word)
      requires at + 4 <= Buffer(bufp).Length
      modifies Buffer(bufp)
      ensures Buffer(bufp)[..] == PutWord(old(Buffer(bufp)[..]), at, src)
    {
      var a := Buffer(bufp);
      a[at] := ByteOf(src, 0);
      a[at + 1] := ByteOf(src, 1);
      a[at + 2] := ByteOf(src, 2);
      a[at + 3] := ByteOf(src, 3);
    }

    /**
     * `fb_draw`.  A location the written guard rejects changes nothing; one
     * whose 4 bytes fit the active buffer is stored there; for the rest,
     * where the C store runs past the buffer, the model reports `Overrun`
     * and changes nothing.  All three blend branches perform the same
     * store, so the result does not depend on `blend`.
     */
    method Draw(x: int, y: int, src: Word) returns (outcome: DrawOutcome)
      requires Valid()
      modifies Buffer(bufp)
      ensures Valid()
      ensures outcome == Outcome(Location(vinfo, finfo, x, y), ssize)
      ensures outcome == Stored ==>
                Buffer(bufp)[..] == PutWord(old(Buffer(bufp)[..]), bufp.offset + Location(vinfo, finfo, x, y), src)
      ensures outcome != Stored ==> unchanged(Buffer(bufp))
    {
      var location := Location(vinfo, finfo, x, y);
      if location > ssize {
        return Dropped;
      }
      if location + 4 > ssize {
        return Overrun;
      }
      BuffersInside();
      if blend == BlendAlpha {
        Store(bufp.offset + location, src);
      } else if blend == BlendAdd {
        Store(bufp.offset + location, src);
      } else {
        Store(bufp.offset + location, src);
      }
      outcome := Stored;
    }

    /** `fb_clear`: every byte of the back buffer becomes the low byte of `pixel`. */
    method Clear(pixel: Word)
      requires Valid()
      modifies Buffer(bbuf)
      ensures Valid()
      ensures Buffer(bbuf)[..] == Fill(old(Buffer(bbuf)[..]), bbuf.offset, ssize, Low(pixel))
    {
      BuffersInside();
      var a := Buffer(bbuf);
      forall i | bbuf.offset <= i < bbuf.offset + ssize {
        a[i] := Low(pixel);
      }
      assert a[..] == Fill(old(a[..]), bbuf.offset, ssize, Low(pixel));
    }

    /**
     * `fb_swap`: nothing in unbuffered mode; in shadow-copy mode the back
     * buffer is copied over the front; in pan mode the offset toggles and
     * the buffers exchange roles, the back one becoming the drawing target.
     */
    method Swap()
      requires Valid()
      modifies this`vinfo, this`fbuf, this`bbuf, this`bufp, device
      ensures Valid() && vinfo == old(vinfo).(yoffset := vinfo.yoffset)
      ensures old(Mode()) == Unbuffered ==> Pan() == old(Pan()) && unchanged(device)
      ensures old(Mode()) == ShadowCopy ==>
                Pan() == old(Pan()) && device[..] == Splice(old(device[..]), 0, old(heap[..]))
      ensures old(Mode()) == DoublePan ==> Pan() == PanSwap(old(Pan()), ssize) && unchanged(device)
    {
      if HasFlag(flags, DoubleBufferNone) {
        return;
      } else if HasFlag(flags, DoubleBufferMem) {
        CopyBackToFront();
      } else if HasFlag(flags, DoubleBufferPan) {
        PanFlip();
      }
    }

    /** `memcpy(fbuf, bbuf, ssize)` of shadow-copy mode. */
    method CopyBackToFront()
      requires Valid() && Mode() == ShadowCopy
      modifies device
      ensures device[..] == Splice(old(device[..]), 0, heap[..])
    {
      forall i | 0 <= i < ssize {
        device[i] := heap[i];
      }
      assert device[..] == Splice(old(device[..]), 0, heap[..]);
    }

    /** The pan-mode present: toggle `yoffset`, exchange front and back, draw into the new back buffer. */
    method PanFlip()
      requires Valid() && Mode() == DoublePan
      modifies this`vinfo, this`fbuf, this`bbuf, this`bufp
      ensures Valid() && vinfo == old(vinfo).(yoffset := vinfo.yoffset)
      ensures Pan() == PanSwap(old(Pan()), ssize)
    {
      vinfo := vinfo.(yoffset := PanToggle(vinfo.yoffset, ssize));
      fbuf, bbuf := bbuf, fbuf;
      bufp := bbuf;
    }

    /** `fb_close`: the releases it performs, as written; the device is closed afterwards. */
    method Close() returns (plan: seq<Release>)
      requires fdOpen
      modifies this`fdOpen
      ensures !fdOpen
      ensures plan == ClosePlan(old(Mode()), old(fbuf), old(ssize), old(kdsave))
    {
      plan := ClosePlan(Mode(), fbuf, ssize, kdsave);
      fdOpen := false;
    }

    /**
     * `fb_swap` then `fb_close` on a pan-mode surface laid out as `fb_init`
     * leaves it: the present moves `fbuf` to the second half of the
     * mapping, so the close unmaps from there and not from the mapping's
     * start.
     */
    method CloseAfterPanPresent() returns (plan: seq<Release>)
      requires Valid() && Mode() == DoublePan && fbuf == BufRef(Device, 0)
      modifies this, device
      ensures !fdOpen
      ensures plan == ClosePlan(DoublePan, BufRef(Device, old(ssize)), old(ssize), old(kdsave))
      ensures plan[0] == Unmap(BufRef(Device, old(ssize)), 2 * old(ssize))
      ensures plan[0] != Unmap(BufRef(Device, 0), MapLength(DoublePan, old(ssize)))
    {
      Swap();
      plan := Close();
    }
  }
}
